=== FILE: README.md ===
# Genetic job scheduler — a Dafny model

This project models the algorithmic part of `Main2.cpp`. That program schedules precedence-constrained jobs on `K` machines. Moving a result between machines costs a communication delay, and the goal is a low makespan, the time the last machine becomes free. The model has three parts.

- **`topologicalSort`** orders the jobs with Kahn's algorithm (module `TopoSort`).
- **`calculateFitness`** walks a schedule of (job, machine) entries. It keeps a free time per machine and an end time per job, and returns the largest machine free time (module `Fitness`).
- **`geneticAlgorithm`** is the search loop:
  - random initialisation against the topological order (`Operators`);
  - evaluation and ranking with `std::sort` on (makespan, schedule) tuples (`Ranking`, `Engine`);
  - truncation selection of the better half;
  - one-point crossover, single-gene mutation, and the refill loop (`Operators`);
  - the generation loop and its report of the best schedule (`Engine`, `Driver`).

Modules, leaves first:
- `Base`: jobs, schedule entries, the error outcomes, and the caller's obligations.
- `SeqFacts`: facts about distinct sequences.
- `TopoSort`
- `Fitness`
- `Ranking`
- `Operators`
- `Engine`: written against any evaluator.
- `Driver`: plugs in `calculateFitness`.

Randomness is explicit. The C library's `rand()` is a parameter `rand: nat -> nat`, where `rand(n)` is the value of the n-th call.
- Initialisation (`Operators.RandomGenes`, `Operators.InitPopulation`) takes a start position. It uses exactly P·N draws from position 0: chromosome p reads positions p·N to p·N + N - 1. `Driver.Search` then starts the generations at position P·N.
- `Operators.Breed`, `Operators.Refill`, `Engine.Generation` and `Engine.Evolve` take the position of their first draw and return the position after their last.
- Per child, `Breed` draws the two parent indices, the cut point and the mutation roll. Only when the roll is below the rate does it also draw a position and a machine. It passes these values to `Operators.Crossover` and `Operators.Mutate`, which draw nothing themselves.

Failure is explicit too:
- A communication-cost lookup that `at()` would throw on is `Err(MissingCommunicationCost(dep, job))`.
- A dependency cycle is `Err(CyclicDependency(placed, total))`. The source would read past the end of its short topological order in that case.

## Model

| member | source | states |
|---|---|---|
| TopoSort.TopologicalSort | Main2.cpp:31-65 | the result lists distinct existing jobs, each after all of its dependencies, and every job it leaves out waits for a dependency it also leaves out |
| TopoSort.SortCompleteIffAcyclic | Main2.cpp:52-64 | the order holds every job exactly when the dependency graph has no cycle; with a cycle it is strictly shorter than the job count |
| TopoSort.AcyclicSortIsLinearExtension | Main2.cpp:37-62 | for an acyclic job set the order is a duplicate-free permutation of 0..N-1 in which every job follows all of its dependencies |
| TopoSort.RelaxCounts | Main2.cpp:57-61 | relaxing a successor list lowers each counter by the job's number of occurrences in it, and enqueues a job once exactly when its counter passes through zero |
| TopoSort.ZeroQueue | Main2.cpp:45-50 | the initial queue holds exactly the jobs whose counter is zero, in increasing id order |
| TopoSort.CycleNeverPlaced | Main2.cpp:52-62 | no dependency-respecting order, with or without repeated entries, can place a job that lies on a cycle |
| TopoSort.BlockedHasCycle | Main2.cpp:52-64 | a job the loop never placed lies downstream of a dependency cycle: a dependency path leads from it to the first job of a cycle, so the graph has a cycle |
| Fitness.MachineOfFirst | Main2.cpp:80-86 | the rescan yields the machine of the first entry for the dependency, or -1 when the schedule has none |
| Fitness.StartTimeSpec | Main2.cpp:79-92 | the dependency loop fails exactly when a remote dependency has no cost, naming such a pair; otherwise it yields the machine free time or a dependency's arrival, whichever is largest |
| Fitness.PlaceJob | Main2.cpp:75-95 | the job ends no earlier than its machine's free time plus its duration; its machine becomes free at that end time; every other machine and job is unchanged |
| Fitness.PlaceJobSpec | Main2.cpp:77-95 | placing an entry succeeds exactly when its remote dependencies all have a cost, and the job then starts at the maximum of the machine free time and the dependencies' arrivals |
| Fitness.RunSucceedsIff | Main2.cpp:74-96 | the loop gets through the first k entries exactly when each of them has the costs of its remote dependencies |
| Fitness.MaxOf | Main2.cpp:98 | the result is at least every element and equal to one of them |
| Fitness.CalculateFitness | Main2.cpp:68-99 | the evaluation succeeds exactly when every entry's remote dependencies have a cost; a failure is always a missing communication cost |
| Fitness.EntryTiming | Main2.cpp:77-94 | entry k starts no earlier than its machine is free and no earlier than each dependency's end, plus the delay when the dependency ran on another machine |
| Fitness.EntryFrame | Main2.cpp:94-95 | entry k frees its machine at its own end time and leaves every other job's end time and every other machine's free time alone |
| Fitness.EndAfterDependency | Main2.cpp:87-94 | with non-negative delays a job ends at least its duration after each dependency's end |
| Fitness.MakespanCoversEveryJob | Main2.cpp:94-98 | with non-negative durations the makespan is at least every job's end time |
| Fitness.MakespanCoversEveryLoad | Main2.cpp:94-98 | the makespan is at least the total duration of the jobs assigned to any one machine |
| Fitness.FitnessIgnoresLocalCosts | Main2.cpp:87-91 | two delay tables that agree on every remote (dependency, job) pair give the same outcome, so same-machine dependencies never consult the table |
| Fitness.LocalScheduleNeedsNoCosts | Main2.cpp:87-91 | a schedule without a cross-machine dependency evaluates successfully even with an empty delay table |
| Fitness.SingleJobMakespan | Main2.cpp:68-99 | one job on one machine has a makespan equal to its duration |
| Fitness.IndependentPairSameMachine | Main2.cpp:68-99 | two independent jobs on one machine, in either order, have a makespan equal to the sum of their durations |
| Fitness.DependentPairRemote | Main2.cpp:87-88 | B after A on another machine gives dA + c + dB |
| Fitness.DependentPairLocal | Main2.cpp:89-90 | B after A on the same machine gives dA + dB, whatever the table holds |
| Fitness.DependentPairMissingCost | Main2.cpp:87-88 | B after A on another machine without an (A, B) entry is the missing-cost error for that pair |
| Fitness.FourJobLowerBound | Main2.cpp:68-99 | in the four-job example (A 3; B 4 and C 2 after A; D 5 after both), every machine assignment and every non-negative delay table gives at least 12 |
| Fitness.FourJobOptimum | Main2.cpp:68-99 | A, B, D on machine 0 and C on machine 1 with unit delays gives exactly 12 |
| Ranking.LeqTotalOrder | Main2.cpp:127-128 | the tuple order `std::sort` uses is reflexive, total, antisymmetric and transitive |
| Ranking.Sort | Main2.cpp:127-128 | the result is sorted and is a permutation of the input |
| Ranking.SortedUnique | Main2.cpp:127-128 | two sorted permutations of the same tuples are equal, so any sorting algorithm gives this ranking |
| Ranking.SortedFirstIsBest | Main2.cpp:127-130 | the first ranked tuple is one of the input tuples and has the smallest makespan of all |
| Ranking.Survivors | Main2.cpp:133-136 | selection keeps the schedules of the first `count` ranked tuples, in rank order |
| Ranking.SurvivorsAreFittest | Main2.cpp:133-136 | every survivor scored no worse than every discarded schedule |
| Ranking.SurvivorsSubMultiset | Main2.cpp:127-136 | selection copies ranked schedules without duplicating any: the survivors are a sub-multiset of the schedules that were ranked, in whatever order they were evaluated |
| Operators.RandomGenes | Main2.cpp:113-115 | entry i runs job `topo[i]` on machine `rand() % K` for the i-th draw |
| Operators.InitPopulation | Main2.cpp:111-116 | there are `P` chromosomes; chromosome p is built from the draws following the p·N earlier ones, and each conforms to the topological order with machines in [0, K) |
| Operators.CopyTail | Main2.cpp:146-148 | the copy loop takes the donor's entries from j on and keeps the child's before j |
| Operators.Crossover | Main2.cpp:142-148 | the child is the first parent up to the cut and the second parent from the cut on |
| Operators.CrossoverAtStart | Main2.cpp:142-148 | cutting at 0 yields the second parent |
| Operators.CrossoverAtEnd | Main2.cpp:142-148 | cutting at N yields the first parent |
| Operators.CrossoverConforms | Main2.cpp:142-148 | each child entry is the same-position entry of a parent, so the child keeps the chromosome shape |
| Operators.Mutate | Main2.cpp:150-155 | only the machine at the chosen position changes, to the drawn value; every job id and every other entry stays |
| Operators.MutateConforms | Main2.cpp:150-155 | mutating to a machine in [0, K) keeps the chromosome shape |
| Operators.Breed | Main2.cpp:139-157 | a child has N entries, and one pass consumes 4 draws, or 6 when the roll is below the mutation rate |
| Operators.BreedConforms | Main2.cpp:139-157 | a child of conforming parents conforms |
| Operators.BreedWithoutMutationInherits | Main2.cpp:142-148 | without mutation every child entry is inherited, at its position, from a parent |
| Operators.Refill | Main2.cpp:139-158 | the loop ends with exactly P chromosomes and keeps the survivors unchanged in front |
| Operators.RefillConforms | Main2.cpp:139-158 | refilling a conforming population yields a conforming population |
| Operators.RefillWithoutMutationInherits | Main2.cpp:139-158 | with a mutation rate of 0 the refilled population holds only genes already present at the same positions |
| Engine.Evaluate | Main2.cpp:121-125 | the evaluation succeeds exactly when every chromosome's does, pairing each with its makespan in population order; otherwise it returns the first failure |
| Engine.Generation | Main2.cpp:119-158 | the best entry is a population member with the smallest makespan; P/2 survivors lead the next population of P conforming chromosomes, the best first (that they are the fittest half is `Engine.GenerationKeepsFittest`) |
| Engine.GenerationKeepsFittest | Main2.cpp:121-136 | a generation's P/2 survivors are a sub-multiset of its population, in ascending makespan, and no chromosome left out scores better than any survivor |
| Engine.SelectionKeepsFittest | Main2.cpp:121-136 | for any sorted ranking of the evaluated population, its first entries are population members in ascending makespan, no more copies than the population holds, and none better is discarded |
| Engine.Evolve | Main2.cpp:118-163 | one best makespan per generation, never increasing; the reported best has the last of them and at most the best initial makespan; any failing initial chromosome fails the run; with mutation rate 0 all genes come from the initial population |
| Engine.GenerationWithoutMutationInherits | Main2.cpp:133-158 | with mutation rate 0 one generation only recombines genes of the population it started from |
| Driver.Search | Main2.cpp:111-163 | with `calculateFitness` as evaluator, the best schedule follows the topological order and its makespan is the last generation's best |
| Driver.GeneticAlgorithm | Main2.cpp:102-163 | the run fails with a cycle error exactly when the graph has a cycle and otherwise only with a missing cost; on success the best schedule lists every job once after its dependencies, and its makespan is the last generation's best, never above an earlier generation's |

## Left out

- Console output: the per-generation line (line 130) and the final report grouped by machine (lines 161-173). They are I/O. `Outcome` returns the best makespans per generation and the best schedule they print.
- `random_device` and `mt19937` (lines 105-106): they are constructed but never used. `srand(time(NULL))` in `main` is replaced by the `rand` parameter.
- `main` and its hard-coded jobs and delay table (lines 176-341): these are data, not logic.
- `pair_hash` (lines 21-28): the delay table is a Dafny `map`, so no hash is needed.
- 32-bit `int` arithmetic: durations, delays and end times are unbounded integers. Overflow of the C++ `int` sums is not modelled.
- Undefined behaviour is turned into preconditions rather than modelled. Ids must be the dense indices `0..N-1` and dependencies must name existing jobs (`ValidJobs`). Schedule entries must name existing jobs and machines. `K >= 1`, `N >= 1`, `P >= 2` and `G >= 1` are required; otherwise `rand() % K`, `rand() % numJobs` or `rand() % (P/2)` divide by zero, or the final `fitnessPopulation[0]` is read from an empty vector.
- The source reads past the end of its topological order when the graph has a cycle. `Driver.GeneticAlgorithm` reports `CyclicDependency` instead. `TopoSort.TopologicalSort` itself returns the short order exactly as the source does.
- Ties in the ranking: `std::sort` compares whole tuples, so equal makespans are ordered by comparing the schedules lexicographically. Breaking ties by population index is a different rule that the code does not implement. The model follows the code.
- Operators.Crossover: the source draws the cut below N, so a cut of N never occurs in a run. `CrossoverAtEnd` covers it for completeness.
- Engine.Evolve: the model takes the mutation rate as a parameter. The source writes the rate as the literal 10 at line 151; here it is `Operators.MutationPercent`. Rate 0 only serves to state what crossover alone can produce. With rate 0 chromosomes do still change, because crossover recombines them. What is proved is that no gene appears that the initial population did not hold at that position.
- Any claim that the search converges or reaches a given makespan: it depends on the draws, and the code does not promise it.

=== FILE: base.dfy ===
/** Shared vocabulary of the scheduler: jobs, schedule entries and the
    error outcomes that the C++ program signals by undefined behaviour or
    an escaping exception. */
module Base {

  /** A unit of work: its identifier, its execution time and the
      identifiers of the jobs it depends on (Main2.cpp, struct Job). */
  datatype Job = Job(id: int, executionTime: int, dependencies: seq<int>)

  /** One schedule entry: a job and the machine it runs on
      (a `pair<int, int>` in the source). A chromosome is a schedule. */
  datatype Gene = Gene(job: int, machine: int)

  type Schedule = seq<Gene>

  /** Communication delays keyed by (producer job, consumer job). */
  type CommTable = map<(int, int), int>

  datatype Error =
      /** `communicationTime.at({dep, job})` found no entry: the source
          throws `std::out_of_range`. */
    | MissingCommunicationCost(producer: int, consumer: int)
      /** Kahn's algorithm placed fewer jobs than exist; the source would
          go on to read past the end of the topological order. */
    | CyclicDependency(placed: nat, total: nat)

  /** The outcome of an operation that can fail; usable with `:-`. */
  datatype Result<T> = Ok(value: T) | Err(error: Error) {
    predicate IsFailure()
    {
      Err?
    }

    function PropagateFailure<U>(): Result<U>
      requires Err?
    {
      Err(error)
    }

    function Extract(): T
      requires Ok?
    {
      value
    }
  }

  /** Job identifiers are the dense indices 0..N-1 in vector order and every
      dependency names an existing job. The source indexes its arrays with
      these values unchecked, so this is what it demands of its caller. */
  predicate ValidJobs(jobs: seq<Job>)
  {
    forall i :: 0 <= i < |jobs| ==>
      && jobs[i].id == i
      && forall d :: d in jobs[i].dependencies ==> 0 <= d < |jobs|
  }

  /** Every entry names an existing job and a machine in [0, k). */
  predicate WellFormed(s: Schedule, n: int, k: int)
  {
    forall i :: 0 <= i < |s| ==> 0 <= s[i].job < n && 0 <= s[i].machine < k
  }

  /** Every job takes a non-negative amount of time. */
  predicate NonNegativeDurations(jobs: seq<Job>)
  {
    forall i :: 0 <= i < |jobs| ==> jobs[i].executionTime >= 0
  }

  /** Every communication delay is non-negative. */
  predicate NonNegativeCosts(comm: CommTable)
  {
    forall key :: key in comm ==> comm[key] >= 0
  }
}

=== FILE: driver.dfy ===
/** `geneticAlgorithm` as a whole (Main2.cpp:102-163): order the jobs,
    draw the initial population, run the generations with
    `calculateFitness` as the evaluator and the fixed 10% mutation rate,
    and report the best schedule of the last generation. */
module Driver {
  import opened Base
  import opened SeqFacts
  import opened TopoSort
  import opened Fitness
  import opened Ranking
  import opened Operators
  import opened Engine

  /** `calculateFitness` bound to one problem instance. */
  function FitnessOf(jobs: seq<Job>, comm: CommTable, machines: nat): (f: Evaluator)
    requires ValidJobs(jobs) && machines >= 1
    ensures forall s :: WellFormed(s, |jobs|, machines) ==>
      f.requires(s) && f(s) == CalculateFitness(s, jobs, comm, machines)
  {
    s requires WellFormed(s, |jobs|, machines) => CalculateFitness(s, jobs, comm, machines)
  }

  /** The jobs of a schedule, in schedule order. */
  function JobOrder(s: Schedule): (order: seq<int>)
    ensures |order| == |s| && forall i :: 0 <= i < |s| ==> order[i] == s[i].job
  {
    seq(|s|, i requires 0 <= i < |s| => s[i].job)
  }

  /** Chromosomes that follow the topological order are schedules of the
      instance, and the evaluator accepts them. */
  lemma ConformingAccepted(jobs: seq<Job>, comm: CommTable, machines: nat, topo: seq<int>)
    requires ValidJobs(jobs) && machines >= 1 && InRange(topo, |jobs|)
    ensures forall s :: Conforms(s, topo, machines) ==> WellFormed(s, |jobs|, machines)
    ensures Accepts(FitnessOf(jobs, comm, machines), topo, machines)
  {
    forall s: Schedule | Conforms(s, topo, machines)
      ensures WellFormed(s, |jobs|, machines)
    {
      assert forall i :: 0 <= i < |s| ==> s[i].job == topo[i];
    }
  }

  /** A conforming chromosome runs the jobs in the given order. */
  lemma ConformingFollowsOrder(s: Schedule, topo: seq<int>, machines: nat)
    requires Conforms(s, topo, machines)
    ensures JobOrder(s) == topo
  {
  }

  /** The run once the jobs are ordered: initial population from the
      first draws, then the generations from the following ones. */
  function Search(jobs: seq<Job>, comm: CommTable, machines: nat, size: nat, generations: nat,
                  rand: RandStream, topo: seq<int>): (r: Result<Outcome>)
    requires ValidJobs(jobs) && machines >= 1 && size >= 2 && generations >= 1
    requires |topo| >= 1 && InRange(topo, |jobs|)
    ensures r.Err? ==> r.error.MissingCommunicationCost?
    ensures r.Ok? ==>
      && |r.value.history| == generations
      && NonIncreasing(r.value.history)
      && r.value.best.fitness == r.value.history[generations - 1]
      && Conforms(r.value.best.schedule, topo, machines)
      && WellFormed(r.value.best.schedule, |jobs|, machines)
      && CalculateFitness(r.value.best.schedule, jobs, comm, machines) == Ok(r.value.best.fitness)
      && |r.value.population| == size
  {
    var fitness := FitnessOf(jobs, comm, machines);
    ConformingAccepted(jobs, comm, machines, topo);
    var pop := InitPopulation(topo, machines, size, rand, 0);
    var drawn: nat := size * |topo|;
    Evolve(pop, topo, machines, fitness, MutationPercent, rand, drawn, generations)
  }

  /** `geneticAlgorithm(jobs, communicationTime, K, populationSize,
      generations)`, with `rand` the values `rand()` returns. A cyclic
      dependency graph is reported as an error where the source would index
      past the end of its topological order; a missing communication cost
      ends the run as the escaping `std::out_of_range` does. */
  function GeneticAlgorithm(jobs: seq<Job>, comm: CommTable, machines: nat, size: nat, generations: nat,
                            rand: RandStream): (r: Result<Outcome>)
    requires ValidJobs(jobs) && |jobs| >= 1 && machines >= 1 && size >= 2 && generations >= 1
    ensures r.Err? && r.error.CyclicDependency? <==> HasCycle(jobs)
    ensures r.Err? ==> r.error.CyclicDependency? || r.error.MissingCommunicationCost?
    ensures r.Ok? ==>
      && |r.value.history| == generations
      && NonIncreasing(r.value.history)
      && r.value.best.fitness == r.value.history[generations - 1]
      && WellFormed(r.value.best.schedule, |jobs|, machines)
      && CalculateFitness(r.value.best.schedule, jobs, comm, machines) == Ok(r.value.best.fitness)
      && |r.value.population| == size
    ensures r.Ok? ==>
      var order := JobOrder(r.value.best.schedule);
      && |order| == |jobs| && Distinct(order)
      && (forall v :: 0 <= v < |jobs| <==> v in order)
      && DepsBefore(jobs, order)
  {
    var topo := TopologicalSort(jobs);
    SortCompleteIffAcyclic(jobs);
    if |topo| < |jobs| then
      Err(CyclicDependency(|topo|, |jobs|))
    else
      AcyclicSortIsLinearExtension(jobs);
      var r := Search(jobs, comm, machines, size, generations, rand, topo);
      if r.Ok? then
        ConformingFollowsOrder(r.value.best.schedule, topo, machines);
        r
      else
        r
  }
}

=== FILE: engine.dfy ===
/** The generation loop of `geneticAlgorithm` (Main2.cpp:118-163): evaluate
    every chromosome, sort, keep the better half unchanged, refill with
    bred children, and after the last generation report the best ranked
    schedule of that generation.

    The loop is written against any makespan evaluator; `Driver` plugs in
    `CalculateFitness`. */
module Engine {
  import opened Base
  import opened Ranking
  import opened Operators

  /** A makespan evaluator, defined on the schedules it accepts. */
  type Evaluator = Schedule --> Result<int>

  /** The evaluator accepts every conforming chromosome. */
  ghost predicate Accepts(fitness: Evaluator, topo: seq<int>, machines: int)
  {
    forall s :: Conforms(s, topo, machines) ==> fitness.requires(s)
  }

  /** The evaluation loop (lines 121-125): every chromosome with its
      makespan, in population order. The first chromosome whose evaluation
      fails ends the whole run with that error. */
  function Evaluate(pop: seq<Schedule>, fitness: Evaluator): (r: Result<seq<Scored>>)
    requires forall p :: 0 <= p < |pop| ==> fitness.requires(pop[p])
    ensures r.Ok? <==> forall p :: 0 <= p < |pop| ==> fitness(pop[p]).Ok?
    ensures r.Ok? ==> |r.value| == |pop| && forall p :: 0 <= p < |pop| ==>
      r.value[p] == Scored(fitness(pop[p]).value, pop[p])
    ensures r.Err? ==> exists p :: (0 <= p < |pop| && fitness(pop[p]) == Err(r.error) &&
      forall q :: 0 <= q < p ==> fitness(pop[q]).Ok?)
    decreases |pop|
  {
    if pop == [] then Ok([])
    else
      var init := pop[..|pop| - 1];
      assert forall p :: 0 <= p < |init| ==> init[p] == pop[p];
      var scored :- Evaluate(init, fitness);
      var last := pop[|pop| - 1];
      var f :- fitness(last);
      Ok(scored + [Scored(f, last)])
  }

  /** The outcome of one generation: the best ranked entry, which is what
      the source prints, the survivors, and the population handed on. */
  datatype Round = Round(best: Scored, survivors: seq<Schedule>, next: seq<Schedule>, cursor: nat)

  /** One pass of the loop body (lines 119-158). `percent` is the mutation
      rate. */
  function Generation(pop: seq<Schedule>, topo: seq<int>, machines: nat, fitness: Evaluator,
                      percent: nat, rand: RandStream, cursor: nat): (r: Result<Round>)
    requires machines >= 1 && |topo| >= 1 && |pop| >= 2
    requires AllConform(pop, topo, machines) && Accepts(fitness, topo, machines)
    ensures r.Ok? <==> forall p :: 0 <= p < |pop| ==> fitness(pop[p]).Ok?
    ensures r.Ok? ==>
      && r.value.best.schedule in pop
      && fitness(r.value.best.schedule) == Ok(r.value.best.fitness)
      && (forall p :: 0 <= p < |pop| ==> r.value.best.fitness <= fitness(pop[p]).value)
    ensures r.Ok? ==>
      && |r.value.survivors| == |pop| / 2
      && |r.value.next| == |pop|
      && r.value.next[..|pop| / 2] == r.value.survivors
      && r.value.survivors[0] == r.value.best.schedule
      && (forall i :: 0 <= i < |pop| / 2 ==> r.value.survivors[i] in pop)
      && AllConform(r.value.next, topo, machines)
    ensures r.Err? ==> exists p :: 0 <= p < |pop| && fitness(pop[p]) == Err(r.error)
  {
    var scored :- Evaluate(pop, fitness);
    Selection(pop, topo, machines, fitness, scored);
    var ranked := Sort(scored);
    var half := |pop| / 2;
    var survivors := Survivors(ranked, half);
    var refilled := Refill(survivors, half, |pop|, |topo|, machines, percent, rand, cursor);
    RefillConforms(survivors, half, |pop|, topo, machines, percent, rand, cursor);
    Ok(Round(ranked[0], survivors, refilled.0, refilled.1))
  }

  /** Each generation's survivors are the fittest half of its population
      (lines 128-136). */
  lemma GenerationKeepsFittest(pop: seq<Schedule>, topo: seq<int>, machines: nat, fitness: Evaluator,
                               percent: nat, rand: RandStream, cursor: nat)
    requires machines >= 1 && |topo| >= 1 && |pop| >= 2
    requires AllConform(pop, topo, machines) && Accepts(fitness, topo, machines)
    ensures var r := Generation(pop, topo, machines, fitness, percent, rand, cursor);
      r.Ok? ==> KeepsFittest(pop, fitness, r.value.survivors)
  {
    var r := Generation(pop, topo, machines, fitness, percent, rand, cursor);
    if r.Ok? {
      var scored := Evaluate(pop, fitness).value;
      Selection(pop, topo, machines, fitness, scored);
      assert r.value.survivors == Survivors(Sort(scored), |pop| / 2);
    }
  }

  /** What ranking and truncation give one generation: the head of the
      ranking is a best member of the population, and the first half of the
      ranking is the fittest half, conforming and led by that head. */
  lemma Selection(pop: seq<Schedule>, topo: seq<int>, machines: nat, fitness: Evaluator, scored: seq<Scored>)
    requires |pop| >= 2 && AllConform(pop, topo, machines) && Accepts(fitness, topo, machines)
    requires Pairs(pop, fitness, scored)
    ensures var ranked := Sort(scored);
      && |ranked| == |pop|
      && ranked[0].schedule in pop
      && fitness(ranked[0].schedule) == Ok(ranked[0].fitness)
      && (forall p :: 0 <= p < |pop| ==> ranked[0].fitness <= fitness(pop[p]).value)
    ensures var sv := Survivors(Sort(scored), |pop| / 2);
      && sv[0] == Sort(scored)[0].schedule
      && (forall i :: 0 <= i < |pop| / 2 ==> sv[i] in pop)
      && AllConform(sv, topo, machines)
      && KeepsFittest(pop, fitness, sv)
  {
    var ranked := Sort(scored);
    SortedFirstIsBest(scored);
    forall p | 0 <= p < |pop|
      ensures ranked[0].fitness <= fitness(pop[p]).value
    {
      assert scored[p] in scored;
    }
    SelectionKeepsFittest(pop, fitness, scored, ranked, |pop| / 2);
  }

  /** Every ranked entry is a chromosome of the population together with
      the makespan the evaluator gives it. */
  lemma RankedFromPopulation(pop: seq<Schedule>, fitness: Evaluator, scored: seq<Scored>, ranked: seq<Scored>)
    requires Pairs(pop, fitness, scored)
    requires multiset(ranked) == multiset(scored)
    ensures forall k :: 0 <= k < |ranked| ==>
      ranked[k].schedule in pop && fitness(ranked[k].schedule) == Ok(ranked[k].fitness)
  {
    forall k | 0 <= k < |ranked|
      ensures ranked[k].schedule in pop && fitness(ranked[k].schedule) == Ok(ranked[k].fitness)
    {
      assert ranked[k] in multiset(scored);
      var p :| 0 <= p < |scored| && scored[p] == ranked[k];
    }
  }

  /** Truncation selection keeps the fittest (lines 128-136): the survivors
      are copies of distinct population members, in ascending makespan,
      and no chromosome left behind scores better than any survivor. */
  predicate KeepsFittest(pop: seq<Schedule>, fitness: Evaluator, sv: seq<Schedule>)
    requires forall p :: 0 <= p < |pop| ==> fitness.requires(pop[p])
    requires forall i :: 0 <= i < |sv| ==> fitness.requires(sv[i])
  {
    && multiset(sv) <= multiset(pop)
    && (forall i, j :: 0 <= i < j < |sv| ==>
          (fitness(sv[i]).Ok? && fitness(sv[j]).Ok? && fitness(sv[i]).value <= fitness(sv[j]).value))
    && (forall i, p :: 0 <= i < |sv| && 0 <= p < |pop| && pop[p] !in sv ==>
          (fitness(sv[i]).Ok? && fitness(pop[p]).Ok? && fitness(sv[i]).value <= fitness(pop[p]).value))
  }

  /** The population paired with its makespans, as `Evaluate` builds it. */
  ghost predicate Pairs(pop: seq<Schedule>, fitness: Evaluator, scored: seq<Scored>)
  {
    && (forall p :: 0 <= p < |pop| ==> fitness.requires(pop[p]) && fitness(pop[p]).Ok?)
    && |scored| == |pop|
    && (forall p :: 0 <= p < |pop| ==> scored[p] == Scored(fitness(pop[p]).value, pop[p]))
  }

  /** Sorting the evaluated population and keeping its first entries keeps
      the fittest. */
  lemma SelectionKeepsFittest(pop: seq<Schedule>, fitness: Evaluator, scored: seq<Scored>, ranked: seq<Scored>, half: nat)
    requires Pairs(pop, fitness, scored)
    requires Sorted(ranked) && multiset(ranked) == multiset(scored) && half <= |ranked|
    ensures forall i :: 0 <= i < half ==> Survivors(ranked, half)[i] in pop
    ensures KeepsFittest(pop, fitness, Survivors(ranked, half))
  {
    RankedFromPopulation(pop, fitness, scored, ranked);
    assert Schedules(scored) == pop;
    SurvivorsSubMultiset(ranked, scored, half);
    SurvivorsAscending(pop, fitness, ranked, half);
    SurvivorsBeatDiscarded(pop, fitness, scored, ranked, half);
  }

  /** The survivors come in ascending makespan. */
  lemma SurvivorsAscending(pop: seq<Schedule>, fitness: Evaluator, ranked: seq<Scored>, half: nat)
    requires Sorted(ranked) && half <= |ranked|
    requires forall k :: 0 <= k < |ranked| ==>
      fitness.requires(ranked[k].schedule) && fitness(ranked[k].schedule) == Ok(ranked[k].fitness)
    ensures var sv := Survivors(ranked, half);
      forall i, j :: 0 <= i < j < |sv| ==>
        (fitness(sv[i]).Ok? && fitness(sv[j]).Ok? && fitness(sv[i]).value <= fitness(sv[j]).value)
  {
    var sv := Survivors(ranked, half);
    forall i, j | 0 <= i < j < |sv|
      ensures fitness(sv[i]).Ok? && fitness(sv[j]).Ok? && fitness(sv[i]).value <= fitness(sv[j]).value
    {
      assert Leq(ranked[i], ranked[j]);
    }
  }

  /** No chromosome left out of the survivors scores better than any of them. */
  lemma SurvivorsBeatDiscarded(pop: seq<Schedule>, fitness: Evaluator, scored: seq<Scored>, ranked: seq<Scored>, half: nat)
    requires Pairs(pop, fitness, scored)
    requires Sorted(ranked) && multiset(ranked) == multiset(scored) && half <= |ranked|
    requires forall k :: 0 <= k < |ranked| ==>
      fitness.requires(ranked[k].schedule) && fitness(ranked[k].schedule) == Ok(ranked[k].fitness)
    ensures var sv := Survivors(ranked, half);
      forall i, p :: 0 <= i < |sv| && 0 <= p < |pop| && pop[p] !in sv ==>
        (fitness(sv[i]).Ok? && fitness(pop[p]).Ok? && fitness(sv[i]).value <= fitness(pop[p]).value)
  {
    var sv := Survivors(ranked, half);
    SurvivorsAreFittest(ranked, half);
    forall i, p | 0 <= i < |sv| && 0 <= p < |pop| && pop[p] !in sv
      ensures fitness(sv[i]).Ok? && fitness(pop[p]).Ok? && fitness(sv[i]).value <= fitness(pop[p]).value
    {
      assert scored[p] in multiset(ranked);
      var k :| 0 <= k < |ranked| && ranked[k] == scored[p];
    }
  }

  /** Everything a run reports: the best makespan printed for each
      generation, the best ranked entry of the last generation (lines
      162-163), and the population and draw position after the last
      refill. */
  datatype Outcome = Outcome(history: seq<int>, best: Scored, population: seq<Schedule>, cursor: nat)

  predicate NonIncreasing(xs: seq<int>)
  {
    forall i, j :: 0 <= i <= j < |xs| ==> xs[j] <= xs[i]
  }

  lemma NonIncreasingCons(x: int, xs: seq<int>)
    requires NonIncreasing(xs) && (xs != [] ==> xs[0] <= x)
    ensures NonIncreasing([x] + xs)
  {
    var ys := [x] + xs;
    forall i, j | 0 <= i <= j < |ys|
      ensures ys[j] <= ys[i]
    {
      if 0 < i {
        assert ys[i] == xs[i - 1] && ys[j] == xs[j - 1];
      } else if 0 < j {
        assert ys[j] == xs[j - 1] <= xs[0];
      }
    }
  }

  /** `generations` passes of the loop starting from `pop`. The best
      makespan never gets worse from one generation to the next: the best
      chromosome survives unchanged at the front of the population, and
      mutation only ever touches a child. */
  function Evolve(pop: seq<Schedule>, topo: seq<int>, machines: nat, fitness: Evaluator,
                  percent: nat, rand: RandStream, cursor: nat, generations: nat): (r: Result<Outcome>)
    requires machines >= 1 && |topo| >= 1 && |pop| >= 2 && generations >= 1
    requires AllConform(pop, topo, machines) && Accepts(fitness, topo, machines)
    ensures r.Ok? ==>
      && |r.value.history| == generations
      && NonIncreasing(r.value.history)
      && r.value.best.fitness == r.value.history[generations - 1]
      && Conforms(r.value.best.schedule, topo, machines)
      && fitness(r.value.best.schedule) == Ok(r.value.best.fitness)
      && |r.value.population| == |pop|
      && AllConform(r.value.population, topo, machines)
    ensures r.Ok? ==> forall p :: 0 <= p < |pop| ==> fitness(pop[p]).Ok? && r.value.history[0] <= fitness(pop[p]).value
    ensures r.Ok? ==> exists p :: 0 <= p < |pop| && fitness(pop[p]) == Ok(r.value.history[0])
    ensures (exists p :: 0 <= p < |pop| && fitness(pop[p]).Err?) ==> r.Err?
    ensures r.Err? ==> exists s :: Conforms(s, topo, machines) && fitness(s) == Err(r.error)
    ensures r.Ok? && percent == 0 ==> GenesFrom(r.value.population, pop) && GenesFrom([r.value.best.schedule], pop)
    decreases generations
  {
    var round :- Generation(pop, topo, machines, fitness, percent, rand, cursor);
    var first := round.best;
    assert round.next[0] == first.schedule;
    assert percent == 0 ==> GenesFrom(round.next, pop) && GenesFrom([first.schedule], pop) by {
      if percent == 0 {
        GenerationWithoutMutationInherits(pop, topo, machines, fitness, rand, cursor);
        MemberGenesFrom(first.schedule, pop);
      }
    }
    if generations == 1 then
      Ok(Outcome([first.fitness], first, round.next, round.cursor))
    else
      var rest :- Evolve(round.next, topo, machines, fitness, percent, rand, round.cursor, generations - 1);
      var history := [first.fitness] + rest.history;
      NonIncreasingCons(first.fitness, rest.history);
      assert percent == 0 ==> GenesFrom(rest.population, pop) && GenesFrom([rest.best.schedule], pop) by {
        if percent == 0 {
          GenesFromTransitive(rest.population, round.next, pop);
          GenesFromTransitive([rest.best.schedule], round.next, pop);
        }
      }
      Ok(Outcome(history, rest.best, rest.population, rest.cursor))
  }

  /** With a mutation rate of 0 a generation only recombines the genes of
      the population it started from. */
  lemma GenerationWithoutMutationInherits(pop: seq<Schedule>, topo: seq<int>, machines: nat, fitness: Evaluator,
                                          rand: RandStream, cursor: nat)
    requires machines >= 1 && |topo| >= 1 && |pop| >= 2
    requires AllConform(pop, topo, machines) && Accepts(fitness, topo, machines)
    requires Generation(pop, topo, machines, fitness, 0, rand, cursor).Ok?
    ensures GenesFrom(Generation(pop, topo, machines, fitness, 0, rand, cursor).value.next, pop)
  {
    var r := Generation(pop, topo, machines, fitness, 0, rand, cursor).value;
    var half := |pop| / 2;
    forall p, i | 0 <= p < |r.survivors| && 0 <= i < |r.survivors[p]|
      ensures InPool(r.survivors[p][i], i, pop)
    {
      var q :| 0 <= q < |pop| && pop[q] == r.survivors[p];
    }
    assert AllConform(r.survivors, topo, machines);
    RefillWithoutMutationInherits(r.survivors, half, |pop|, |topo|, machines, rand, cursor, pop);
    assert r.next == Refill(r.survivors, half, |pop|, |topo|, machines, 0, rand, cursor).0;
  }

  lemma MemberGenesFrom(c: Schedule, pool: seq<Schedule>)
    requires c in pool
    ensures GenesFrom([c], pool)
  {
    var q :| 0 <= q < |pool| && pool[q] == c;
    forall p, i | 0 <= p < 1 && 0 <= i < |[c][p]|
      ensures InPool([c][p][i], i, pool)
    {
      assert [c][p][i] == pool[q][i];
    }
  }
}

=== FILE: fitness.dfy ===
/** The makespan evaluator `calculateFitness` (Main2.cpp:68-99). It walks
    the schedule in order keeping a free time per machine and an end time
    per job. A job starts once its machine is free and each dependency has
    finished; a dependency that ran on another machine also costs the
    communication delay for that (producer, consumer) pair. The result is
    the largest machine free time. */
module Fitness {
  import opened Base

  /** `machineEndTime` and `jobEndTime` of lines 70-71. */
  datatype Timing = Timing(machineEnd: seq<int>, jobEnd: seq<int>)

  /** The machine of the first entry for `job`, or -1 when the schedule has
      none: the rescan of lines 80-86. */
  function MachineOf(s: Schedule, job: int): int
  {
    if s == [] then -1
    else if s[0].job == job then s[0].machine
    else MachineOf(s[1..], job)
  }

  /** `MachineOf` finds the machine of the first entry for `job`, and -1
      when there is none. */
  lemma {:induction false} MachineOfFirst(s: Schedule, job: int)
    ensures (forall i :: 0 <= i < |s| ==> s[i].job != job) ==> MachineOf(s, job) == -1
    ensures forall i :: 0 <= i < |s| && s[i].job == job && (forall k :: 0 <= k < i ==> s[k].job != job) ==>
      MachineOf(s, job) == s[i].machine
    decreases |s|
  {
    if s != [] && s[0].job != job {
      MachineOfFirst(s[1..], job);
      assert forall i :: 1 <= i < |s| ==> s[i] == s[1..][i - 1];
    }
  }

  /** The dependency `dep` of entry `e` ran on a different machine, so its
      result must be communicated. */
  predicate Remote(s: Schedule, e: Gene, dep: int)
  {
    MachineOf(s, dep) != e.machine
  }

  /** Every remote dependency of `e` has a communication cost. */
  predicate CostsPresent(s: Schedule, comm: CommTable, e: Gene, deps: seq<int>)
  {
    forall d :: d in deps && Remote(s, e, d) ==> (d, e.job) in comm
  }

  /** The earliest time the dependency `dep` lets `e` start: its end time,
      plus the communication cost when it is remote. */
  function Arrival(s: Schedule, comm: CommTable, jobEnd: seq<int>, e: Gene, dep: int): int
    requires 0 <= dep < |jobEnd|
    requires Remote(s, e, dep) ==> (dep, e.job) in comm
  {
    if Remote(s, e, dep) then jobEnd[dep] + comm[(dep, e.job)] else jobEnd[dep]
  }

  /** `start` is the start time the recurrence prescribes: the largest of
      the machine's free time and every dependency's arrival. */
  ghost predicate IsStart(s: Schedule, comm: CommTable, t: Timing, e: Gene, deps: seq<int>, start: int)
    requires 0 <= e.machine < |t.machineEnd|
    requires forall d :: d in deps ==> 0 <= d < |t.jobEnd|
    requires CostsPresent(s, comm, e, deps)
  {
    && start >= t.machineEnd[e.machine]
    && (forall d :: d in deps ==> start >= Arrival(s, comm, t.jobEnd, e, d))
    && (start == t.machineEnd[e.machine] || exists d :: d in deps && start == Arrival(s, comm, t.jobEnd, e, d))
  }

  /** The dependency loop of lines 79-92, from a running start time.
      It fails at the first remote dependency without a communication cost
      (`at()` throws); otherwise the result is the maximum of `start` and
      the arrivals of `deps`. */
  function StartTime(s: Schedule, comm: CommTable, jobEnd: seq<int>, e: Gene, deps: seq<int>, start: int)
    : (r: Result<int>)
    requires forall d :: d in deps ==> 0 <= d < |jobEnd|
    ensures r.Err? ==> r.error.MissingCommunicationCost?
    decreases |deps|
  {
    if deps == [] then Ok(start)
    else
      var dep := deps[0];
      assert dep in deps && forall x :: x in deps[1..] ==> x in deps;
      if Remote(s, e, dep) then
        if (dep, e.job) in comm then
          StartTime(s, comm, jobEnd, e, deps[1..], Max(start, jobEnd[dep] + comm[(dep, e.job)]))
        else
          Err(MissingCommunicationCost(dep, e.job))
      else
        StartTime(s, comm, jobEnd, e, deps[1..], Max(start, jobEnd[dep]))
  }

  function Max(a: int, b: int): int
  {
    if a < b then b else a
  }

  /** `StartTime` unfolded once: the first dependency either fails the
      loop or raises the running start time. */
  lemma StartTimeUnfold(s: Schedule, comm: CommTable, jobEnd: seq<int>, e: Gene, deps: seq<int>, start: int)
      returns (rest: seq<int>)
    requires forall d :: d in deps ==> 0 <= d < |jobEnd|
    requires deps != []
    ensures 0 <= deps[0] < |jobEnd|
    ensures rest == deps[1..] && forall x :: x in rest ==> x in deps && 0 <= x < |jobEnd|
    ensures var dep := deps[0];
      StartTime(s, comm, jobEnd, e, deps, start) ==
        if Remote(s, e, dep) then
          if (dep, e.job) in comm then StartTime(s, comm, jobEnd, e, rest, Max(start, jobEnd[dep] + comm[(dep, e.job)]))
          else Err(MissingCommunicationCost(dep, e.job))
        else StartTime(s, comm, jobEnd, e, rest, Max(start, jobEnd[dep]))
  {
    assert deps[0] in deps;
    rest := deps[1..];
    assert forall x :: x in rest ==> x in deps;
  }

  /** The loop fails exactly when a remote dependency lacks a cost, naming
      one; otherwise it yields the largest of `start` and the arrivals. */
  lemma {:induction false} StartTimeSpec(s: Schedule, comm: CommTable, jobEnd: seq<int>, e: Gene, deps: seq<int>, start: int)
    requires forall d :: d in deps ==> 0 <= d < |jobEnd|
    ensures var r := StartTime(s, comm, jobEnd, e, deps, start);
      && (r.Ok? <==> CostsPresent(s, comm, e, deps))
      && (r.Err? ==> exists d :: d in deps && Remote(s, e, d) && r.error == MissingCommunicationCost(d, e.job))
      && (r.Ok? ==> r.value >= start)
      && (r.Ok? ==> forall d :: d in deps ==> r.value >= Arrival(s, comm, jobEnd, e, d))
      && (r.Ok? ==> r.value == start || exists d :: d in deps && r.value == Arrival(s, comm, jobEnd, e, d))
    decreases |deps|
  {
    if deps != [] {
      var dep := deps[0];
      var rest := StartTimeUnfold(s, comm, jobEnd, e, deps, start);
      assert forall x :: x in deps ==> x == dep || x in rest;
      if Remote(s, e, dep) {
        if (dep, e.job) in comm {
          assert Arrival(s, comm, jobEnd, e, dep) == jobEnd[dep] + comm[(dep, e.job)];
          StartTimeSpec(s, comm, jobEnd, e, rest, Max(start, jobEnd[dep] + comm[(dep, e.job)]));
        }
      } else {
        assert Arrival(s, comm, jobEnd, e, dep) == jobEnd[dep];
        StartTimeSpec(s, comm, jobEnd, e, rest, Max(start, jobEnd[dep]));
      }
    }
  }

  /** The body of lines 75-95 for one entry `e`: the job ends at its start
      time plus its execution time, and its machine becomes free then. */
  function PlaceJob(s: Schedule, jobs: seq<Job>, comm: CommTable, t: Timing, e: Gene): (r: Result<Timing>)
    requires ValidJobs(jobs) && |t.jobEnd| == |jobs|
    requires 0 <= e.job < |jobs| && 0 <= e.machine < |t.machineEnd|
    ensures r.Err? ==> r.error.MissingCommunicationCost?
    ensures r.Ok? ==>
      && |r.value.machineEnd| == |t.machineEnd| && |r.value.jobEnd| == |t.jobEnd|
      && r.value.jobEnd[e.job] >= t.machineEnd[e.machine] + jobs[e.job].executionTime
      && r.value.machineEnd[e.machine] == r.value.jobEnd[e.job]
      && (forall m :: 0 <= m < |t.machineEnd| && m != e.machine ==> r.value.machineEnd[m] == t.machineEnd[m])
      && (forall v :: 0 <= v < |t.jobEnd| && v != e.job ==> r.value.jobEnd[v] == t.jobEnd[v])
  {
    StartTimeSpec(s, comm, t.jobEnd, e, jobs[e.job].dependencies, t.machineEnd[e.machine]);
    var start :- StartTime(s, comm, t.jobEnd, e, jobs[e.job].dependencies, t.machineEnd[e.machine]);
    var finish := start + jobs[e.job].executionTime;
    Ok(Timing(t.machineEnd[e.machine := finish], t.jobEnd[e.job := finish]))
  }

  /** Placing `e` succeeds exactly when its remote dependencies all have a
      cost, and then the job starts at the time the recurrence prescribes. */
  lemma PlaceJobSpec(s: Schedule, jobs: seq<Job>, comm: CommTable, t: Timing, e: Gene)
    requires ValidJobs(jobs) && |t.jobEnd| == |jobs|
    requires 0 <= e.job < |jobs| && 0 <= e.machine < |t.machineEnd|
    ensures var r := PlaceJob(s, jobs, comm, t, e);
      && (r.Ok? <==> CostsPresent(s, comm, e, jobs[e.job].dependencies))
      && (r.Ok? ==> IsStart(s, comm, t, e, jobs[e.job].dependencies, r.value.jobEnd[e.job] - jobs[e.job].executionTime))
  {
    StartTimeSpec(s, comm, t.jobEnd, e, jobs[e.job].dependencies, t.machineEnd[e.machine]);
  }

  /** The timing state after the loop of lines 74-96 has processed the
      first `k` entries; both arrays start at zero. */
  function Run(s: Schedule, jobs: seq<Job>, comm: CommTable, machines: nat, k: nat): (r: Result<Timing>)
    requires ValidJobs(jobs) && WellFormed(s, |jobs|, machines) && k <= |s|
    ensures r.Err? ==> r.error.MissingCommunicationCost?
    ensures r.Ok? ==> |r.value.machineEnd| == machines && |r.value.jobEnd| == |jobs|
    decreases k
  {
    if k == 0 then Ok(Timing(seq(machines, _ => 0), seq(|jobs|, _ => 0)))
    else
      var t :- Run(s, jobs, comm, machines, k - 1);
      PlaceJob(s, jobs, comm, t, s[k - 1])
  }

  /** The loop gets through `k` entries exactly when each of them has the
      costs of its remote dependencies. */
  lemma RunSucceedsIff(s: Schedule, jobs: seq<Job>, comm: CommTable, machines: nat, k: nat)
    requires ValidJobs(jobs) && WellFormed(s, |jobs|, machines) && k <= |s|
    ensures Run(s, jobs, comm, machines, k).Ok? <==>
      forall i :: 0 <= i < k ==> CostsPresent(s, comm, s[i], jobs[s[i].job].dependencies)
  {
    if Run(s, jobs, comm, machines, k).Ok? {
      RunOkHasCosts(s, jobs, comm, machines, k);
    }
    if forall i :: 0 <= i < k ==> CostsPresent(s, comm, s[i], jobs[s[i].job].dependencies) {
      CostsLetRunSucceed(s, jobs, comm, machines, k);
    }
  }

  lemma {:induction false} RunOkHasCosts(s: Schedule, jobs: seq<Job>, comm: CommTable, machines: nat, k: nat)
    requires ValidJobs(jobs) && WellFormed(s, |jobs|, machines) && k <= |s|
    requires Run(s, jobs, comm, machines, k).Ok?
    ensures forall i :: 0 <= i < k ==> CostsPresent(s, comm, s[i], jobs[s[i].job].dependencies)
    decreases k
  {
    if k > 0 {
      var prev := RunStep(s, jobs, comm, machines, k);
      RunOkHasCosts(s, jobs, comm, machines, k - 1);
      PlaceJobSpec(s, jobs, comm, prev, s[k - 1]);
    }
  }

  lemma {:induction false} CostsLetRunSucceed(s: Schedule, jobs: seq<Job>, comm: CommTable, machines: nat, k: nat)
    requires ValidJobs(jobs) && WellFormed(s, |jobs|, machines) && k <= |s|
    requires forall i :: 0 <= i < k ==> CostsPresent(s, comm, s[i], jobs[s[i].job].dependencies)
    ensures Run(s, jobs, comm, machines, k).Ok?
    decreases k
  {
    if k > 0 {
      CostsLetRunSucceed(s, jobs, comm, machines, k - 1);
      RunUnfold(s, jobs, comm, machines, k);
      var prev := Run(s, jobs, comm, machines, k - 1).value;
      PlaceJobSpec(s, jobs, comm, prev, s[k - 1]);
    }
  }

  /** `*max_element` over a non-empty sequence. */
  function MaxOf(xs: seq<int>): (r: int)
    requires |xs| > 0
    ensures forall i :: 0 <= i < |xs| ==> xs[i] <= r
    ensures exists i :: 0 <= i < |xs| && xs[i] == r
  {
    if |xs| == 1 then xs[0]
    else
      var rest := MaxOf(xs[1..]);
      assert forall i :: 1 <= i < |xs| ==> xs[i] == xs[1..][i - 1];
      Max(xs[0], rest)
  }

  /** `calculateFitness` (lines 68-99): the makespan of the schedule on
      `machines` machines, or the first missing communication cost. */
  function CalculateFitness(s: Schedule, jobs: seq<Job>, comm: CommTable, machines: nat): (r: Result<int>)
    requires ValidJobs(jobs) && machines >= 1 && WellFormed(s, |jobs|, machines)
    ensures r.Ok? <==> forall i :: 0 <= i < |s| ==> CostsPresent(s, comm, s[i], jobs[s[i].job].dependencies)
    ensures r.Err? ==> r.error.MissingCommunicationCost?
  {
    RunSucceedsIff(s, jobs, comm, machines, |s|);
    var t :- Run(s, jobs, comm, machines, |s|);
    Ok(MaxOf(t.machineEnd))
  }

  // ---------------------------------------------------------------------
  // Properties of the evaluator
  // ---------------------------------------------------------------------

  lemma MaxOfMonotone(a: seq<int>, b: seq<int>)
    requires |a| == |b| > 0
    requires forall i :: 0 <= i < |a| ==> a[i] <= b[i]
    ensures MaxOf(a) <= MaxOf(b)
  {
    var i :| 0 <= i < |a| && a[i] == MaxOf(a);
    assert b[i] <= MaxOf(b);
  }

  /** With non-negative durations no machine's free time ever goes back. */
  lemma PlaceJobMonotone(s: Schedule, jobs: seq<Job>, comm: CommTable, t: Timing, e: Gene)
    requires ValidJobs(jobs) && NonNegativeDurations(jobs) && |t.jobEnd| == |jobs|
    requires 0 <= e.job < |jobs| && 0 <= e.machine < |t.machineEnd|
    requires PlaceJob(s, jobs, comm, t, e).Ok?
    ensures forall m :: 0 <= m < |t.machineEnd| ==>
      t.machineEnd[m] <= PlaceJob(s, jobs, comm, t, e).value.machineEnd[m]
  {
  }

  /** One more iteration of the loop: a successful run of `k` entries is a
      successful run of `k - 1` entries followed by placing entry `k - 1`. */
  lemma RunStep(s: Schedule, jobs: seq<Job>, comm: CommTable, machines: nat, k: nat) returns (prev: Timing)
    requires ValidJobs(jobs) && WellFormed(s, |jobs|, machines) && 0 < k <= |s|
    requires Run(s, jobs, comm, machines, k).Ok?
    ensures Run(s, jobs, comm, machines, k - 1) == Ok(prev)
    ensures |prev.machineEnd| == machines && |prev.jobEnd| == |jobs|
    ensures PlaceJob(s, jobs, comm, prev, s[k - 1]) == Run(s, jobs, comm, machines, k)
  {
    prev := Run(s, jobs, comm, machines, k - 1).value;
  }

  /** Invariant of the loop: every recorded job end time is at most the
      largest machine free time. */
  lemma {:induction false} JobEndsBounded(s: Schedule, jobs: seq<Job>, comm: CommTable, machines: nat, k: nat)
    requires ValidJobs(jobs) && NonNegativeDurations(jobs) && machines >= 1
    requires WellFormed(s, |jobs|, machines) && k <= |s|
    requires Run(s, jobs, comm, machines, k).Ok?
    ensures var t := Run(s, jobs, comm, machines, k).value;
      forall v :: 0 <= v < |jobs| ==> t.jobEnd[v] <= MaxOf(t.machineEnd)
    decreases k
  {
    var t := Run(s, jobs, comm, machines, k).value;
    if k == 0 {
      assert t.machineEnd[0] <= MaxOf(t.machineEnd);
    } else {
      var e := s[k - 1];
      var prev := RunStep(s, jobs, comm, machines, k);
      JobEndsBounded(s, jobs, comm, machines, k - 1);
      PlaceJobMonotone(s, jobs, comm, prev, e);
      MaxOfMonotone(prev.machineEnd, t.machineEnd);
      forall v | 0 <= v < |jobs|
        ensures t.jobEnd[v] <= MaxOf(t.machineEnd)
      {
        if v == e.job {
          assert t.jobEnd[v] == t.machineEnd[e.machine];
        } else {
          assert t.jobEnd[v] == prev.jobEnd[v];
        }
      }
    }
  }

  /** With non-negative durations the makespan is at least every job's
      recorded end time. */
  lemma MakespanCoversEveryJob(s: Schedule, jobs: seq<Job>, comm: CommTable, machines: nat)
    requires ValidJobs(jobs) && NonNegativeDurations(jobs) && machines >= 1
    requires WellFormed(s, |jobs|, machines)
    ensures var r := CalculateFitness(s, jobs, comm, machines);
      r.Ok? ==> forall v :: 0 <= v < |jobs| ==> Run(s, jobs, comm, machines, |s|).value.jobEnd[v] <= r.value
  {
    if CalculateFitness(s, jobs, comm, machines).Ok? {
      JobEndsBounded(s, jobs, comm, machines, |s|);
    }
  }

  /** The total execution time of the entries of `s[..k]` on machine `m`. */
  function Load(s: Schedule, jobs: seq<Job>, m: int, k: nat): int
    requires k <= |s| && forall i :: 0 <= i < |s| ==> 0 <= s[i].job < |jobs|
    decreases k
  {
    if k == 0 then 0
    else Load(s, jobs, m, k - 1) + (if s[k - 1].machine == m then jobs[s[k - 1].job].executionTime else 0)
  }

  /** A machine is free no earlier than the total duration of the jobs it
      has run. */
  lemma {:induction false} MachineEndCoversLoad(s: Schedule, jobs: seq<Job>, comm: CommTable, machines: nat, m: nat, k: nat)
    requires ValidJobs(jobs) && WellFormed(s, |jobs|, machines) && m < machines && k <= |s|
    requires Run(s, jobs, comm, machines, k).Ok?
    ensures Load(s, jobs, m, k) <= Run(s, jobs, comm, machines, k).value.machineEnd[m]
    decreases k
  {
    if k > 0 {
      var prev := RunStep(s, jobs, comm, machines, k);
      MachineEndCoversLoad(s, jobs, comm, machines, m, k - 1);
    }
  }

  /** The makespan is at least the total duration of the jobs assigned to
      any one machine; no sign assumption is needed. */
  lemma MakespanCoversEveryLoad(s: Schedule, jobs: seq<Job>, comm: CommTable, machines: nat)
    requires ValidJobs(jobs) && machines >= 1 && WellFormed(s, |jobs|, machines)
    ensures var r := CalculateFitness(s, jobs, comm, machines);
      r.Ok? ==> forall m :: 0 <= m < machines ==> Load(s, jobs, m, |s|) <= r.value
  {
    if CalculateFitness(s, jobs, comm, machines).Ok? {
      forall m | 0 <= m < machines
        ensures Load(s, jobs, m, |s|) <= CalculateFitness(s, jobs, comm, machines).value
      {
        MachineEndCoversLoad(s, jobs, comm, machines, m, |s|);
      }
    }
  }

  /** The timing of entry `k` as the recurrence prescribes it: the job
      starts no earlier than its machine is free and than every dependency
      has arrived, with a communication delay when the dependency ran
      elsewhere; it ends its execution time later. */
  lemma EntryTiming(s: Schedule, jobs: seq<Job>, comm: CommTable, machines: nat, k: nat, d: int)
    requires ValidJobs(jobs) && WellFormed(s, |jobs|, machines) && k < |s|
    requires Run(s, jobs, comm, machines, k + 1).Ok?
    requires d in jobs[s[k].job].dependencies
    ensures Run(s, jobs, comm, machines, k).Ok?
    ensures var t := Run(s, jobs, comm, machines, k).value;
      var r := Run(s, jobs, comm, machines, k + 1).value;
      var exec := jobs[s[k].job].executionTime;
      && r.jobEnd[s[k].job] >= t.machineEnd[s[k].machine] + exec
      && (Remote(s, s[k], d) ==> (d, s[k].job) in comm && r.jobEnd[s[k].job] >= t.jobEnd[d] + comm[(d, s[k].job)] + exec)
      && (!Remote(s, s[k], d) ==> r.jobEnd[s[k].job] >= t.jobEnd[d] + exec)
  {
    var prev := RunStep(s, jobs, comm, machines, k + 1);
    PlaceJobSpec(s, jobs, comm, prev, s[k]);
  }

  /** Entry `k` ends its execution time after its machine became free,
      frees its machine at that time, and leaves every other job's end time
      and every other machine's free time alone. */
  lemma EntryFrame(s: Schedule, jobs: seq<Job>, comm: CommTable, machines: nat, k: nat)
    requires ValidJobs(jobs) && WellFormed(s, |jobs|, machines) && k < |s|
    requires Run(s, jobs, comm, machines, k + 1).Ok?
    ensures Run(s, jobs, comm, machines, k).Ok?
    ensures var t := Run(s, jobs, comm, machines, k).value;
      var r := Run(s, jobs, comm, machines, k + 1).value;
      && r.jobEnd[s[k].job] >= t.machineEnd[s[k].machine] + jobs[s[k].job].executionTime
      && r.machineEnd[s[k].machine] == r.jobEnd[s[k].job]
      && (forall v :: 0 <= v < |jobs| && v != s[k].job ==> r.jobEnd[v] == t.jobEnd[v])
      && (forall m :: 0 <= m < machines && m != s[k].machine ==> r.machineEnd[m] == t.machineEnd[m])
  {
    var prev := RunStep(s, jobs, comm, machines, k + 1);
  }

  /** With non-negative delays a job ends at least its execution time after
      each of its dependencies' recorded end. */
  lemma EndAfterDependency(s: Schedule, jobs: seq<Job>, comm: CommTable, machines: nat, k: nat, d: int)
    requires ValidJobs(jobs) && WellFormed(s, |jobs|, machines) && k < |s| && NonNegativeCosts(comm)
    requires Run(s, jobs, comm, machines, k + 1).Ok?
    requires d in jobs[s[k].job].dependencies
    ensures Run(s, jobs, comm, machines, k).Ok?
    ensures Run(s, jobs, comm, machines, k + 1).value.jobEnd[s[k].job]
         >= Run(s, jobs, comm, machines, k).value.jobEnd[d] + jobs[s[k].job].executionTime
  {
    EntryTiming(s, jobs, comm, machines, k, d);
  }

  /** Two delay tables give the same cost for `key`, or both lack it. */
  predicate SameCost(c1: CommTable, c2: CommTable, key: (int, int))
  {
    (key in c1 <==> key in c2) && (key in c1 ==> c1[key] == c2[key])
  }

  /** The tables agree on every (dependency, job) pair of the schedule whose
      dependency runs on another machine. */
  predicate AgreeOnRemote(s: Schedule, jobs: seq<Job>, c1: CommTable, c2: CommTable)
  {
    forall i, d :: 0 <= i < |s| && 0 <= s[i].job < |jobs| && d in jobs[s[i].job].dependencies && Remote(s, s[i], d) ==>
      SameCost(c1, c2, (d, s[i].job))
  }

  lemma {:induction false} StartTimeAgree(s: Schedule, c1: CommTable, c2: CommTable, jobEnd: seq<int>, e: Gene, deps: seq<int>, start: int)
    requires forall d :: d in deps ==> 0 <= d < |jobEnd|
    requires forall d :: d in deps && Remote(s, e, d) ==> SameCost(c1, c2, (d, e.job))
    ensures StartTime(s, c1, jobEnd, e, deps, start) == StartTime(s, c2, jobEnd, e, deps, start)
    decreases |deps|
  {
    if deps != [] {
      var dep := deps[0];
      var rest := StartTimeUnfold(s, c1, jobEnd, e, deps, start);
      var _ := StartTimeUnfold(s, c2, jobEnd, e, deps, start);
      if Remote(s, e, dep) {
        assert dep in deps;
        if (dep, e.job) in c1 {
          StartTimeAgree(s, c1, c2, jobEnd, e, rest, Max(start, jobEnd[dep] + c1[(dep, e.job)]));
        }
      } else {
        StartTimeAgree(s, c1, c2, jobEnd, e, rest, Max(start, jobEnd[dep]));
      }
    }
  }

  lemma PlaceJobAgree(s: Schedule, jobs: seq<Job>, c1: CommTable, c2: CommTable, t: Timing, e: Gene)
    requires ValidJobs(jobs) && |t.jobEnd| == |jobs|
    requires 0 <= e.job < |jobs| && 0 <= e.machine < |t.machineEnd|
    requires forall d :: d in jobs[e.job].dependencies && Remote(s, e, d) ==> SameCost(c1, c2, (d, e.job))
    ensures PlaceJob(s, jobs, c1, t, e) == PlaceJob(s, jobs, c2, t, e)
  {
    StartTimeAgree(s, c1, c2, t.jobEnd, e, jobs[e.job].dependencies, t.machineEnd[e.machine]);
  }

  lemma AgreeAt(s: Schedule, jobs: seq<Job>, c1: CommTable, c2: CommTable, i: nat)
    requires AgreeOnRemote(s, jobs, c1, c2) && i < |s| && 0 <= s[i].job < |jobs|
    ensures forall d :: d in jobs[s[i].job].dependencies && Remote(s, s[i], d) ==> SameCost(c1, c2, (d, s[i].job))
  {
  }

  /** `Run` unfolded once, for either outcome of the shorter run. */
  lemma RunUnfold(s: Schedule, jobs: seq<Job>, comm: CommTable, machines: nat, k: nat)
    requires ValidJobs(jobs) && WellFormed(s, |jobs|, machines) && 0 < k <= |s|
    ensures var r := Run(s, jobs, comm, machines, k - 1);
      Run(s, jobs, comm, machines, k) == if r.Err? then Err(r.error) else PlaceJob(s, jobs, comm, r.value, s[k - 1])
  {
  }

  lemma RunAgreeStep(s: Schedule, jobs: seq<Job>, c1: CommTable, c2: CommTable, machines: nat, k: nat)
    requires ValidJobs(jobs) && WellFormed(s, |jobs|, machines) && 0 < k <= |s|
    requires Run(s, jobs, c1, machines, k - 1) == Run(s, jobs, c2, machines, k - 1)
    requires var e := s[k - 1];
      forall d :: d in jobs[e.job].dependencies && Remote(s, e, d) ==> SameCost(c1, c2, (d, e.job))
    ensures Run(s, jobs, c1, machines, k) == Run(s, jobs, c2, machines, k)
  {
    RunUnfold(s, jobs, c1, machines, k);
    RunUnfold(s, jobs, c2, machines, k);
    var r := Run(s, jobs, c1, machines, k - 1);
    if r.Ok? {
      PlaceJobAgree(s, jobs, c1, c2, r.value, s[k - 1]);
    }
  }

  lemma {:induction false} RunAgree(s: Schedule, jobs: seq<Job>, c1: CommTable, c2: CommTable, machines: nat, k: nat)
    requires ValidJobs(jobs) && WellFormed(s, |jobs|, machines) && k <= |s|
    requires AgreeOnRemote(s, jobs, c1, c2)
    ensures Run(s, jobs, c1, machines, k) == Run(s, jobs, c2, machines, k)
    decreases k
  {
    if k > 0 {
      RunAgree(s, jobs, c1, c2, machines, k - 1);
      AgreeAt(s, jobs, c1, c2, k - 1);
      RunAgreeStep(s, jobs, c1, c2, machines, k);
    }
  }

  /** The makespan consults the delay table only for dependencies that ran
      on another machine: tables that agree there give the same outcome. */
  lemma FitnessIgnoresLocalCosts(s: Schedule, jobs: seq<Job>, c1: CommTable, c2: CommTable, machines: nat)
    requires ValidJobs(jobs) && machines >= 1 && WellFormed(s, |jobs|, machines)
    requires AgreeOnRemote(s, jobs, c1, c2)
    ensures CalculateFitness(s, jobs, c1, machines) == CalculateFitness(s, jobs, c2, machines)
  {
    RunAgree(s, jobs, c1, c2, machines, |s|);
  }

  /** A schedule in which every dependency ran on the consumer's machine
      needs no delay table at all. */
  lemma LocalScheduleNeedsNoCosts(s: Schedule, jobs: seq<Job>, comm: CommTable, machines: nat)
    requires ValidJobs(jobs) && machines >= 1 && WellFormed(s, |jobs|, machines)
    requires forall i, d :: 0 <= i < |s| && d in jobs[s[i].job].dependencies ==> !Remote(s, s[i], d)
    ensures CalculateFitness(s, jobs, comm, machines).Ok?
    ensures CalculateFitness(s, jobs, comm, machines) == CalculateFitness(s, jobs, map[], machines)
  {
    FitnessIgnoresLocalCosts(s, jobs, comm, map[], machines);
  }

  // ---------------------------------------------------------------------
  // Small worked instances
  // ---------------------------------------------------------------------

  lemma MaxOfIs(xs: seq<int>, i: nat, v: int)
    requires i < |xs| && xs[i] == v
    requires forall j :: 0 <= j < |xs| ==> xs[j] <= v
    ensures MaxOf(xs) == v
  {
  }

  /** One job on one of `machines` machines: the makespan is its duration. */
  lemma SingleJobMakespan(d: int, m: nat, machines: nat, comm: CommTable)
    requires d >= 0 && m < machines
    ensures CalculateFitness([Gene(0, m)], [Job(0, d, [])], comm, machines) == Ok(d)
  {
    var s, jobs := [Gene(0, m)], [Job(0, d, [])];
    var t := Run(s, jobs, comm, machines, 1).value;
    assert t.machineEnd == seq(machines, _ => 0)[m := d];
    MaxOfIs(t.machineEnd, m, d);
  }

  /** Two independent jobs on the same machine, in either order: the
      makespan is the sum of their durations. */
  lemma IndependentPairSameMachine(d1: int, d2: int, m: nat, machines: nat, comm: CommTable, swapped: bool)
    requires d1 >= 0 && d2 >= 0 && m < machines
    ensures var s := if swapped then [Gene(1, m), Gene(0, m)] else [Gene(0, m), Gene(1, m)];
      CalculateFitness(s, [Job(0, d1, []), Job(1, d2, [])], comm, machines) == Ok(d1 + d2)
  {
    var s := if swapped then [Gene(1, m), Gene(0, m)] else [Gene(0, m), Gene(1, m)];
    var jobs := [Job(0, d1, []), Job(1, d2, [])];
    var t1 := Run(s, jobs, comm, machines, 1).value;
    assert t1.machineEnd == seq(machines, _ => 0)[m := jobs[s[0].job].executionTime];
    var t2 := Run(s, jobs, comm, machines, 2).value;
    assert t2.machineEnd == t1.machineEnd[m := d1 + d2];
    MaxOfIs(t2.machineEnd, m, d1 + d2);
  }

  /** B depends on A and runs on another machine: the makespan is
      dA + c + dB. */
  lemma DependentPairRemote(dA: int, dB: int, c: int, mA: nat, mB: nat, machines: nat, comm: CommTable)
    requires dA >= 0 && dB >= 0 && c >= 0 && mA < machines && mB < machines && mA != mB
    requires (0, 1) in comm && comm[(0, 1)] == c
    ensures CalculateFitness([Gene(0, mA), Gene(1, mB)], [Job(0, dA, []), Job(1, dB, [0])], comm, machines)
         == Ok(dA + c + dB)
  {
    var s, jobs := [Gene(0, mA), Gene(1, mB)], [Job(0, dA, []), Job(1, dB, [0])];
    assert Remote(s, s[1], 0);
    var t1 := Run(s, jobs, comm, machines, 1).value;
    assert t1.machineEnd == seq(machines, _ => 0)[mA := dA];
    assert t1.jobEnd == [dA, 0];
    var t2 := Run(s, jobs, comm, machines, 2).value;
    assert t2.machineEnd == t1.machineEnd[mB := dA + c + dB];
    MaxOfIs(t2.machineEnd, mB, dA + c + dB);
  }

  /** B depends on A on the same machine: the makespan is dA + dB, with no
      delay and whatever the table holds. */
  lemma DependentPairLocal(dA: int, dB: int, m: nat, machines: nat, comm: CommTable)
    requires dA >= 0 && dB >= 0 && m < machines
    ensures CalculateFitness([Gene(0, m), Gene(1, m)], [Job(0, dA, []), Job(1, dB, [0])], comm, machines)
         == Ok(dA + dB)
  {
    var s, jobs := [Gene(0, m), Gene(1, m)], [Job(0, dA, []), Job(1, dB, [0])];
    assert !Remote(s, s[1], 0);
    var t1 := Run(s, jobs, comm, machines, 1).value;
    assert t1.machineEnd == seq(machines, _ => 0)[m := dA];
    assert t1.jobEnd == [dA, 0];
    var t2 := Run(s, jobs, comm, machines, 2).value;
    assert t2.machineEnd == t1.machineEnd[m := dA + dB];
    MaxOfIs(t2.machineEnd, m, dA + dB);
  }

  /** B depends on A on another machine and the table has no entry for
      (A, B): the evaluation fails naming that pair. */
  lemma DependentPairMissingCost(dA: int, dB: int, mA: nat, mB: nat, machines: nat, comm: CommTable)
    requires mA < machines && mB < machines && mA != mB && (0, 1) !in comm
    ensures CalculateFitness([Gene(0, mA), Gene(1, mB)], [Job(0, dA, []), Job(1, dB, [0])], comm, machines)
         == Err(MissingCommunicationCost(0, 1))
  {
    var s, jobs := [Gene(0, mA), Gene(1, mB)], [Job(0, dA, []), Job(1, dB, [0])];
    assert Remote(s, s[1], 0);
    assert Run(s, jobs, comm, machines, 1).Ok?;
  }

  /** Four jobs: A (3), B (4, after A), C (2, after A), D (5, after B and C). */
  function FourJobs(): (jobs: seq<Job>)
    ensures ValidJobs(jobs) && NonNegativeDurations(jobs)
  {
    [Job(0, 3, []), Job(1, 4, [0]), Job(2, 2, [0]), Job(3, 5, [1, 2])]
  }

  /** A delay of 1 for every dependency pair. */
  function UnitCosts(): (comm: CommTable)
    ensures NonNegativeCosts(comm)
  {
    map[(0, 1) := 1, (0, 2) := 1, (1, 3) := 1, (2, 3) := 1]
  }

  /** The schedule that runs the jobs in the order A, X, Y, D, where X, Y is
      B, C or C, B: every linear extension of the four jobs. */
  function FourJobSchedule(bFirst: bool, a: int, x: int, y: int, d: int): Schedule
  {
    if bFirst then [Gene(0, a), Gene(1, x), Gene(2, y), Gene(3, d)]
    else [Gene(0, a), Gene(2, x), Gene(1, y), Gene(3, d)]
  }

  /** Whatever the machine assignment and the (non-negative) delays, the
      chain A, B, D forces a makespan of at least 3 + 4 + 5 = 12. */
  lemma FourJobLowerBound(bFirst: bool, a: nat, x: nat, y: nat, d: nat, machines: nat, comm: CommTable)
    requires a < machines && x < machines && y < machines && d < machines
    requires NonNegativeCosts(comm)
    ensures var r := CalculateFitness(FourJobSchedule(bFirst, a, x, y, d), FourJobs(), comm, machines);
      r.Ok? ==> r.value >= 12
  {
    var s, jobs := FourJobSchedule(bFirst, a, x, y, d), FourJobs();
    if CalculateFitness(s, jobs, comm, machines).Ok? {
      FourJobChain(bFirst, a, x, y, d, machines, comm);
      MakespanCoversEveryJob(s, jobs, comm, machines);
    }
  }

  /** The chain A, B, D: D ends at least 3 + 4 + 5 after time 0. */
  lemma FourJobChain(bFirst: bool, a: nat, x: nat, y: nat, d: nat, machines: nat, comm: CommTable)
    requires a < machines && x < machines && y < machines && d < machines
    requires NonNegativeCosts(comm)
    requires Run(FourJobSchedule(bFirst, a, x, y, d), FourJobs(), comm, machines, 4).Ok?
    ensures Run(FourJobSchedule(bFirst, a, x, y, d), FourJobs(), comm, machines, 4).value.jobEnd[3] >= 12
  {
    var s, jobs := FourJobSchedule(bFirst, a, x, y, d), FourJobs();
    FourJobBEnds(bFirst, a, x, y, d, machines, comm);
    assert s[3].job == 3;
    EndAfterDependency(s, jobs, comm, machines, 3, 1);
  }

  /** B, which waits for A, ends at least 3 + 4 after time 0, whichever of
      B and C runs first. */
  lemma FourJobBEnds(bFirst: bool, a: nat, x: nat, y: nat, d: nat, machines: nat, comm: CommTable)
    requires a < machines && x < machines && y < machines && d < machines
    requires NonNegativeCosts(comm)
    requires Run(FourJobSchedule(bFirst, a, x, y, d), FourJobs(), comm, machines, 4).Ok?
    ensures Run(FourJobSchedule(bFirst, a, x, y, d), FourJobs(), comm, machines, 3).Ok?
    ensures Run(FourJobSchedule(bFirst, a, x, y, d), FourJobs(), comm, machines, 3).value.jobEnd[1] >= 7
  {
    var s, jobs := FourJobSchedule(bFirst, a, x, y, d), FourJobs();
    EntryFrame(s, jobs, comm, machines, 3);
    if bFirst {
      FourJobBSecond(a, x, y, d, machines, comm);
    } else {
      FourJobBThird(a, x, y, d, machines, comm);
    }
  }

  /** B runs right after A. */
  lemma FourJobBSecond(a: nat, x: nat, y: nat, d: nat, machines: nat, comm: CommTable)
    requires a < machines && x < machines && y < machines && d < machines
    requires NonNegativeCosts(comm)
    requires Run(FourJobSchedule(true, a, x, y, d), FourJobs(), comm, machines, 3).Ok?
    ensures Run(FourJobSchedule(true, a, x, y, d), FourJobs(), comm, machines, 3).value.jobEnd[1] >= 7
  {
    var s, jobs := FourJobSchedule(true, a, x, y, d), FourJobs();
    assert s[1].job == 1 && s[2].job == 2;
    EntryFrame(s, jobs, comm, machines, 2);
    EntryFrame(s, jobs, comm, machines, 1);
    FourJobAEnds(true, a, x, y, d, machines, comm);
    EndAfterDependency(s, jobs, comm, machines, 1, 0);
  }

  /** B runs after A and C. */
  lemma FourJobBThird(a: nat, x: nat, y: nat, d: nat, machines: nat, comm: CommTable)
    requires a < machines && x < machines && y < machines && d < machines
    requires NonNegativeCosts(comm)
    requires Run(FourJobSchedule(false, a, x, y, d), FourJobs(), comm, machines, 3).Ok?
    ensures Run(FourJobSchedule(false, a, x, y, d), FourJobs(), comm, machines, 3).value.jobEnd[1] >= 7
  {
    var s, jobs := FourJobSchedule(false, a, x, y, d), FourJobs();
    assert s[1].job == 2 && s[2].job == 1;
    EntryFrame(s, jobs, comm, machines, 2);
    EntryFrame(s, jobs, comm, machines, 1);
    FourJobAEnds(false, a, x, y, d, machines, comm);
    EndAfterDependency(s, jobs, comm, machines, 2, 0);
  }

  /** A, first on an idle machine, ends at 3. */
  lemma FourJobAEnds(bFirst: bool, a: nat, x: nat, y: nat, d: nat, machines: nat, comm: CommTable)
    requires a < machines && x < machines && y < machines && d < machines
    requires Run(FourJobSchedule(bFirst, a, x, y, d), FourJobs(), comm, machines, 1).Ok?
    ensures Run(FourJobSchedule(bFirst, a, x, y, d), FourJobs(), comm, machines, 1).value.jobEnd[0] >= 3
  {
    var s, jobs := FourJobSchedule(bFirst, a, x, y, d), FourJobs();
    assert s[0].job == 0;
    EntryFrame(s, jobs, comm, machines, 0);
    assert Run(s, jobs, comm, machines, 0).value.machineEnd[a] == 0;
  }

  /** Running A, B, D on machine 0 and C on machine 1 attains the bound. */
  lemma FourJobOptimum()
    ensures CalculateFitness(FourJobSchedule(true, 0, 0, 1, 0), FourJobs(), UnitCosts(), 2) == Ok(12)
  {
    OptimumRunsTo(4);
    MaxOfIs([12, 6], 0, 12);
  }

  /** The timing after each prefix of the optimal schedule. */
  function OptimumTiming(k: nat): Timing
    requires k <= 4
  {
    [Timing([0, 0], [0, 0, 0, 0]), Timing([3, 0], [3, 0, 0, 0]), Timing([7, 0], [3, 7, 0, 0]),
     Timing([7, 6], [3, 7, 6, 0]), Timing([12, 6], [3, 7, 6, 12])][k]
  }

  lemma {:induction false} OptimumRunsTo(k: nat)
    requires k <= 4
    ensures Run(FourJobSchedule(true, 0, 0, 1, 0), FourJobs(), UnitCosts(), 2, k) == Ok(OptimumTiming(k))
  {
    if k == 0 {
      assert seq(2, _ => 0) == [0, 0] && seq(4, _ => 0) == [0, 0, 0, 0];
    } else {
      OptimumRunsTo(k - 1);
      if k == 1 {
        OptimumStep1();
      } else if k == 2 {
        OptimumStep2();
      } else if k == 3 {
        OptimumStep3();
      } else {
        OptimumStep4();
      }
      OptimumExtend(k);
    }
  }

  lemma OptimumExtend(k: nat)
    requires 0 < k <= 4
    requires Run(FourJobSchedule(true, 0, 0, 1, 0), FourJobs(), UnitCosts(), 2, k - 1) == Ok(OptimumTiming(k - 1))
    requires var s := FourJobSchedule(true, 0, 0, 1, 0);
      PlaceJob(s, FourJobs(), UnitCosts(), OptimumTiming(k - 1), s[k - 1]) == Ok(OptimumTiming(k))
    ensures Run(FourJobSchedule(true, 0, 0, 1, 0), FourJobs(), UnitCosts(), 2, k) == Ok(OptimumTiming(k))
  {
    RunUnfold(FourJobSchedule(true, 0, 0, 1, 0), FourJobs(), UnitCosts(), 2, k);
  }

  lemma OptimumStep1()
    ensures var s := FourJobSchedule(true, 0, 0, 1, 0);
      PlaceJob(s, FourJobs(), UnitCosts(), OptimumTiming(0), s[0]) == Ok(OptimumTiming(1))
  {
    var s, comm := FourJobSchedule(true, 0, 0, 1, 0), UnitCosts();
    assert StartTime(s, comm, [0, 0, 0, 0], s[0], [], 0) == Ok(0);
    assert [0, 0][0 := 3] == [3, 0] && [0, 0, 0, 0][0 := 3] == [3, 0, 0, 0];
  }

  lemma OptimumStep2()
    ensures var s := FourJobSchedule(true, 0, 0, 1, 0);
      PlaceJob(s, FourJobs(), UnitCosts(), OptimumTiming(1), s[1]) == Ok(OptimumTiming(2))
  {
    var s, comm := FourJobSchedule(true, 0, 0, 1, 0), UnitCosts();
    assert !Remote(s, s[1], 0);
    assert StartTime(s, comm, [3, 0, 0, 0], s[1], [0], 3) == Ok(3);
    assert [3, 0][0 := 7] == [7, 0] && [3, 0, 0, 0][1 := 7] == [3, 7, 0, 0];
  }

  lemma OptimumStep3()
    ensures var s := FourJobSchedule(true, 0, 0, 1, 0);
      PlaceJob(s, FourJobs(), UnitCosts(), OptimumTiming(2), s[2]) == Ok(OptimumTiming(3))
  {
    var s, comm := FourJobSchedule(true, 0, 0, 1, 0), UnitCosts();
    assert Remote(s, s[2], 0);
    assert StartTime(s, comm, [3, 7, 0, 0], s[2], [0], 0) == Ok(4);
    assert [7, 0][1 := 6] == [7, 6] && [3, 7, 0, 0][2 := 6] == [3, 7, 6, 0];
  }

  lemma OptimumStep4()
    ensures var s := FourJobSchedule(true, 0, 0, 1, 0);
      PlaceJob(s, FourJobs(), UnitCosts(), OptimumTiming(3), s[3]) == Ok(OptimumTiming(4))
  {
    var s, comm := FourJobSchedule(true, 0, 0, 1, 0), UnitCosts();
    assert !Remote(s, s[3], 1) && Remote(s, s[3], 2);
    assert StartTime(s, comm, [3, 7, 6, 0], s[3], [2], 7) == Ok(7);
    assert StartTime(s, comm, [3, 7, 6, 0], s[3], [1, 2], 7) == Ok(7);
    assert [7, 6][0 := 12] == [12, 6] && [3, 7, 6, 0][3 := 12] == [3, 7, 6, 12];
  }
}

=== FILE: operators.dfy ===
/** The variation operators of `geneticAlgorithm` (Main2.cpp:111-158):
    random initialisation, one-point crossover, single-gene mutation and
    the loop that refills the population after selection.

    The C library's `rand()` is a stream of non-negative numbers: `rand(n)`
    is the value of the n-th call. `Breed` and `Refill` take the position of
    their first call and return the position after their last, so the draws
    are consumed in exactly the order the source makes them; `RandomGenes`
    and `InitPopulation` take a start position and return none; `CopyTail`,
    `Crossover` and `Mutate` take no position, the last two receiving the
    values `Breed` has drawn. */
module Operators {
  import opened Base

  type RandStream = nat -> nat

  /** `rand() % 100 < 10` (line 151): the mutation rate, in percent. */
  const MutationPercent: nat := 10

  /** Position `i` of the chromosome schedules job `topo[i]` on an existing
      machine: the shape every chromosome keeps for the whole run. */
  predicate Conforms(c: Schedule, topo: seq<int>, machines: int)
  {
    |c| == |topo| && forall i :: 0 <= i < |c| ==> c[i].job == topo[i] && 0 <= c[i].machine < machines
  }

  predicate AllConform(pop: seq<Schedule>, topo: seq<int>, machines: int)
  {
    forall p :: 0 <= p < |pop| ==> Conforms(pop[p], topo, machines)
  }

  // ---------------------------------------------------------------------
  // Initialisation (lines 111-116)
  // ---------------------------------------------------------------------

  /** The first `k` entries of a chromosome built from the draws starting
      at `cursor`: entry i runs job `topo[i]` on machine `rand() % K`. */
  function RandomGenes(topo: seq<int>, machines: nat, rand: RandStream, cursor: nat, k: nat): (c: Schedule)
    requires machines >= 1 && k <= |topo|
    ensures Conforms(c, topo[..k], machines)
    ensures forall i :: 0 <= i < k ==> c[i].machine == rand(cursor + i) % machines
    decreases k
  {
    if k == 0 then []
    else RandomGenes(topo, machines, rand, cursor, k - 1) + [Gene(topo[k - 1], rand(cursor + k - 1) % machines)]
  }

  /** One chromosome: `|topo|` draws from `cursor` on. */
  function RandomChromosome(topo: seq<int>, machines: nat, rand: RandStream, cursor: nat): (c: Schedule)
    requires machines >= 1
    ensures Conforms(c, topo, machines)
  {
    assert topo[..|topo|] == topo;
    RandomGenes(topo, machines, rand, cursor, |topo|)
  }

  /** The first `count` chromosomes of the initial population; chromosome p
      uses the draws `cursor + p * |topo|` onwards. */
  function InitPopulation(topo: seq<int>, machines: nat, count: nat, rand: RandStream, cursor: nat)
    : (pop: seq<Schedule>)
    requires machines >= 1
    ensures |pop| == count
    ensures AllConform(pop, topo, machines)
    ensures forall p :: 0 <= p < count ==> pop[p] == RandomChromosome(topo, machines, rand, cursor + p * |topo|)
    decreases count
  {
    if count == 0 then []
    else
      InitPopulation(topo, machines, count - 1, rand, cursor)
        + [RandomChromosome(topo, machines, rand, cursor + (count - 1) * |topo|)]
  }

  // ---------------------------------------------------------------------
  // Crossover (lines 142-148)
  // ---------------------------------------------------------------------

  /** The loop `for (j = ...; j < numJobs; ++j) child[j] = donor[j]` from
      position `j` on. */
  function CopyTail(child: Schedule, donor: Schedule, j: nat): (r: Schedule)
    requires |child| == |donor| && j <= |child|
    ensures |r| == |child|
    ensures forall i :: 0 <= i < |r| ==> r[i] == (if i < j then child[i] else donor[i])
    decreases |child| - j
  {
    if j == |child| then child else CopyTail(child[j := donor[j]], donor, j + 1)
  }

  /** One-point crossover: a copy of `first` whose entries from `cut` on are
      replaced by those of `second`. */
  function Crossover(first: Schedule, second: Schedule, cut: nat): (child: Schedule)
    requires |first| == |second| && cut <= |first|
    ensures child == first[..cut] + second[cut..]
  {
    var r := CopyTail(first, second, cut);
    assert forall i :: 0 <= i < |r| ==> r[i] == (first[..cut] + second[cut..])[i];
    r
  }

  /** Cutting at 0 yields the second parent. */
  lemma CrossoverAtStart(first: Schedule, second: Schedule)
    requires |first| == |second|
    ensures Crossover(first, second, 0) == second
  {
  }

  /** Cutting at the end yields the first parent. */
  lemma CrossoverAtEnd(first: Schedule, second: Schedule)
    requires |first| == |second|
    ensures Crossover(first, second, |first|) == first
  {
  }

  /** Every entry of the child is the entry at the same position of one of
      its parents, so crossover preserves the chromosome shape. */
  lemma CrossoverConforms(first: Schedule, second: Schedule, cut: nat, topo: seq<int>, machines: int)
    requires Conforms(first, topo, machines) && Conforms(second, topo, machines) && cut <= |first|
    ensures forall i :: 0 <= i < |first| ==>
      Crossover(first, second, cut)[i] == first[i] || Crossover(first, second, cut)[i] == second[i]
    ensures Conforms(Crossover(first, second, cut), topo, machines)
  {
    var child := Crossover(first, second, cut);
    assert forall i :: 0 <= i < |first| ==> child[i] == if i < cut then first[i] else second[i];
  }

  // ---------------------------------------------------------------------
  // Mutation (lines 150-155)
  // ---------------------------------------------------------------------

  /** `child[pos].second = machine`: move one job to another machine. */
  function Mutate(c: Schedule, pos: nat, machine: int): (r: Schedule)
    requires pos < |c|
    ensures |r| == |c|
    ensures forall i :: 0 <= i < |c| ==> r[i].job == c[i].job
    ensures r[pos].machine == machine
    ensures forall i :: 0 <= i < |c| && i != pos ==> r[i] == c[i]
  {
    c[pos := Gene(c[pos].job, machine)]
  }

  /** Mutating to an existing machine keeps the chromosome shape. */
  lemma MutateConforms(c: Schedule, pos: nat, machine: int, topo: seq<int>, machines: int)
    requires Conforms(c, topo, machines) && pos < |c| && 0 <= machine < machines
    ensures Conforms(Mutate(c, pos, machine), topo, machines)
  {
  }

  // ---------------------------------------------------------------------
  // Breeding and refill (lines 139-158)
  // ---------------------------------------------------------------------

  /** A child and the position of the next unused draw. */
  datatype Bred = Bred(child: Schedule, cursor: nat)

  /** One pass of the refill loop. It draws two parent indices below
      `|parents|`, a crossover point below `numJobs` and a roll below 100;
      when the roll is under `percent` it draws a position and a machine and
      mutates the child. */
  function Breed(parents: seq<Schedule>, numJobs: nat, machines: nat, percent: nat, rand: RandStream, cursor: nat)
    : (r: Bred)
    requires |parents| >= 1 && numJobs >= 1 && machines >= 1
    requires forall p :: 0 <= p < |parents| ==> |parents[p]| == numJobs
    ensures |r.child| == numJobs
    ensures r.cursor == (if rand(cursor + 3) % 100 < percent then cursor + 6 else cursor + 4)
  {
    var first := parents[rand(cursor) % |parents|];
    var second := parents[rand(cursor + 1) % |parents|];
    var child := Crossover(first, second, rand(cursor + 2) % numJobs);
    if rand(cursor + 3) % 100 < percent then
      Bred(Mutate(child, rand(cursor + 4) % numJobs, rand(cursor + 5) % machines), cursor + 6)
    else
      Bred(child, cursor + 4)
  }

  /** A child of conforming parents conforms. */
  lemma BreedConforms(parents: seq<Schedule>, topo: seq<int>, machines: nat, percent: nat, rand: RandStream, cursor: nat)
    requires |parents| >= 1 && |topo| >= 1 && machines >= 1
    requires AllConform(parents, topo, machines)
    ensures Conforms(Breed(parents, |topo|, machines, percent, rand, cursor).child, topo, machines)
  {
    var first := parents[rand(cursor) % |parents|];
    var second := parents[rand(cursor + 1) % |parents|];
    var cut := rand(cursor + 2) % |topo|;
    CrossoverConforms(first, second, cut, topo, machines);
    if rand(cursor + 3) % 100 < percent {
      MutateConforms(Crossover(first, second, cut), rand(cursor + 4) % |topo|, rand(cursor + 5) % machines, topo, machines);
    }
  }

  /** Every entry of an unmutated child is inherited, at the same position,
      from one of the parents. */
  lemma BreedWithoutMutationInherits(parents: seq<Schedule>, numJobs: nat, machines: nat, percent: nat, rand: RandStream, cursor: nat)
    requires |parents| >= 1 && numJobs >= 1 && machines >= 1
    requires forall p :: 0 <= p < |parents| ==> |parents[p]| == numJobs
    requires rand(cursor + 3) % 100 >= percent
    ensures var child := Breed(parents, numJobs, machines, percent, rand, cursor).child;
      forall i :: 0 <= i < numJobs ==> exists p :: 0 <= p < |parents| && child[i] == parents[p][i]
  {
    var a := rand(cursor) % |parents|;
    var b := rand(cursor + 1) % |parents|;
    var cut := rand(cursor + 2) % numJobs;
    var child := Breed(parents, numJobs, machines, percent, rand, cursor).child;
    assert child == Crossover(parents[a], parents[b], cut);
    forall i | 0 <= i < numJobs
      ensures exists p :: 0 <= p < |parents| && child[i] == parents[p][i]
    {
      if i < cut {
        assert child[i] == parents[a][i];
      } else {
        assert child[i] == parents[b][i];
      }
    }
  }

  /** The refill loop: while the population is smaller than `size`, breed a
      child from its first `half` members and append it. Parent indices
      are drawn below `half`, so parents are always survivors, never
      children of this generation. */
  function Refill(pop: seq<Schedule>, half: nat, size: nat, numJobs: nat, machines: nat, percent: nat,
                  rand: RandStream, cursor: nat): (r: (seq<Schedule>, nat))
    requires 1 <= half <= |pop| <= size && numJobs >= 1 && machines >= 1
    requires forall p :: 0 <= p < half ==> |pop[p]| == numJobs
    ensures |r.0| == size
    ensures r.0[..|pop|] == pop
    ensures cursor <= r.1
    decreases size - |pop|
  {
    if |pop| == size then (pop, cursor)
    else
      var b := Breed(pop[..half], numJobs, machines, percent, rand, cursor);
      var r := Refill(pop + [b.child], half, size, numJobs, machines, percent, rand, b.cursor);
      assert r.0[..|pop|] == (r.0[..|pop| + 1])[..|pop|];
      r
  }

  /** Refilling a conforming population yields a conforming population. */
  lemma {:induction false} RefillConforms(pop: seq<Schedule>, half: nat, size: nat, topo: seq<int>, machines: nat,
                                          percent: nat, rand: RandStream, cursor: nat)
    requires 1 <= half <= |pop| <= size && |topo| >= 1 && machines >= 1
    requires AllConform(pop, topo, machines)
    ensures AllConform(Refill(pop, half, size, |topo|, machines, percent, rand, cursor).0, topo, machines)
    decreases size - |pop|
  {
    if |pop| < size {
      var parents := pop[..half];
      var b := Breed(parents, |topo|, machines, percent, rand, cursor);
      BreedConforms(parents, topo, machines, percent, rand, cursor);
      var next := pop + [b.child];
      assert AllConform(next, topo, machines);
      RefillConforms(next, half, size, topo, machines, percent, rand, b.cursor);
    }
  }

  // ---------------------------------------------------------------------
  // Without mutation nothing new appears
  // ---------------------------------------------------------------------

  /** Every entry of every chromosome of `pop` occurs at the same position
      in some chromosome of `pool`. */
  predicate GenesFrom(pop: seq<Schedule>, pool: seq<Schedule>)
  {
    forall p, i :: 0 <= p < |pop| && 0 <= i < |pop[p]| ==> InPool(pop[p][i], i, pool)
  }

  /** Some chromosome of `pool` has `g` at position `i`. */
  predicate InPool(g: Gene, i: int, pool: seq<Schedule>)
  {
    exists q :: 0 <= q < |pool| && 0 <= i < |pool[q]| && g == pool[q][i]
  }

  lemma GenesFromTransitive(a: seq<Schedule>, b: seq<Schedule>, c: seq<Schedule>)
    requires GenesFrom(a, b) && GenesFrom(b, c)
    ensures GenesFrom(a, c)
  {
    forall p, i | 0 <= p < |a| && 0 <= i < |a[p]|
      ensures InPool(a[p][i], i, c)
    {
      assert InPool(a[p][i], i, b);
      var q1 :| 0 <= q1 < |b| && 0 <= i < |b[q1]| && a[p][i] == b[q1][i];
      assert InPool(b[q1][i], i, c);
    }
  }

  /** With a mutation rate of 0 the refill loop only recombines genes that
      the population already holds. */
  lemma {:induction false} RefillWithoutMutationInherits(pop: seq<Schedule>, half: nat, size: nat, numJobs: nat,
                                                         machines: nat, rand: RandStream, cursor: nat, pool: seq<Schedule>)
    requires 1 <= half <= |pop| <= size && numJobs >= 1 && machines >= 1
    requires forall p :: 0 <= p < half ==> |pop[p]| == numJobs
    requires GenesFrom(pop, pool)
    ensures GenesFrom(Refill(pop, half, size, numJobs, machines, 0, rand, cursor).0, pool)
    decreases size - |pop|
  {
    if |pop| < size {
      var parents := pop[..half];
      var b := Breed(parents, numJobs, machines, 0, rand, cursor);
      BreedWithoutMutationInherits(parents, numJobs, machines, 0, rand, cursor);
      var next := pop + [b.child];
      forall p, i | 0 <= p < |next| && 0 <= i < |next[p]|
        ensures InPool(next[p][i], i, pool)
      {
        if p < |pop| {
          assert next[p] == pop[p];
        } else {
          var k :| 0 <= k < |parents| && b.child[i] == parents[k][i];
          assert parents[k] == pop[k];
          assert InPool(pop[k][i], i, pool);
        }
      }
      RefillWithoutMutationInherits(next, half, size, numJobs, machines, rand, b.cursor, pool);
    }
  }
}

=== FILE: ranking.dfy ===
/** The ranking step of each generation (Main2.cpp:118-136): every schedule
    is paired with its makespan in a `tuple<int, vector<pair<int, int>>>`
    and the tuples are sorted with `std::sort`, i.e. by the tuple's
    lexicographic `operator<`. Ties on makespan are therefore broken by
    comparing the schedules themselves, entry by entry. */
module Ranking {
  import opened Base

  /** One element of `fitnessPopulation`. */
  datatype Scored = Scored(fitness: int, schedule: Schedule)

  /** `pair<int, int>::operator<`: by job, then by machine. */
  predicate GeneLess(a: Gene, b: Gene)
  {
    a.job < b.job || (a.job == b.job && a.machine < b.machine)
  }

  /** `vector::operator<=`: lexicographic, a proper prefix coming first. */
  predicate ScheduleLeq(a: Schedule, b: Schedule)
    decreases |a|
  {
    if a == [] then true
    else if b == [] then false
    else if a[0] == b[0] then ScheduleLeq(a[1..], b[1..])
    else GeneLess(a[0], b[0])
  }

  /** `tuple::operator<=`: by makespan, then by schedule. */
  predicate Leq(x: Scored, y: Scored)
  {
    x.fitness < y.fitness || (x.fitness == y.fitness && ScheduleLeq(x.schedule, y.schedule))
  }

  lemma {:induction false} ScheduleLeqTotal(a: Schedule, b: Schedule)
    ensures ScheduleLeq(a, b) || ScheduleLeq(b, a)
    decreases |a|
  {
    if a != [] && b != [] && a[0] == b[0] {
      ScheduleLeqTotal(a[1..], b[1..]);
    }
  }

  lemma {:induction false} ScheduleLeqAntisymmetric(a: Schedule, b: Schedule)
    requires ScheduleLeq(a, b) && ScheduleLeq(b, a)
    ensures a == b
    decreases |a|
  {
    if a != [] {
      assert b != [] && a[0] == b[0];
      ScheduleLeqAntisymmetric(a[1..], b[1..]);
      assert a == [a[0]] + a[1..] && b == [b[0]] + b[1..];
    }
  }

  lemma {:induction false} ScheduleLeqTransitive(a: Schedule, b: Schedule, c: Schedule)
    requires ScheduleLeq(a, b) && ScheduleLeq(b, c)
    ensures ScheduleLeq(a, c)
    decreases |a|
  {
    if a != [] && b != [] && c != [] && a[0] == b[0] && b[0] == c[0] {
      ScheduleLeqTransitive(a[1..], b[1..], c[1..]);
    }
  }

  /** The order `std::sort` uses is a total order on the tuples. */
  lemma LeqTotalOrder(x: Scored, y: Scored, z: Scored)
    ensures Leq(x, x)
    ensures Leq(x, y) || Leq(y, x)
    ensures Leq(x, y) && Leq(y, x) ==> x == y
    ensures Leq(x, y) && Leq(y, z) ==> Leq(x, z)
  {
    ScheduleLeqTotal(x.schedule, x.schedule);
    ScheduleLeqTotal(x.schedule, y.schedule);
    if Leq(x, y) && Leq(y, x) {
      ScheduleLeqAntisymmetric(x.schedule, y.schedule);
    }
    if Leq(x, y) && Leq(y, z) && x.fitness == y.fitness == z.fitness {
      ScheduleLeqTransitive(x.schedule, y.schedule, z.schedule);
    }
  }

  predicate Sorted(xs: seq<Scored>)
  {
    forall i, j :: 0 <= i < j < |xs| ==> Leq(xs[i], xs[j])
  }

  /** A sorted sequence stays sorted under a new head that precedes its
      first element. */
  lemma SortedCons(h: Scored, t: seq<Scored>)
    requires Sorted(t) && (t != [] ==> Leq(h, t[0]))
    ensures Sorted([h] + t)
  {
    var r := [h] + t;
    forall i, j | 0 <= i < j < |r|
      ensures Leq(r[i], r[j])
    {
      if i > 0 {
        assert r[i] == t[i - 1] && r[j] == t[j - 1];
      } else if j > 1 {
        assert Leq(t[0], t[j - 1]);
        LeqTotalOrder(h, t[0], t[j - 1]);
      }
    }
  }

  /** Insert `x` into the sorted `xs`, before the first element above it. */
  function Insert(x: Scored, xs: seq<Scored>): (r: seq<Scored>)
    requires Sorted(xs)
    ensures Sorted(r)
    ensures multiset(r) == multiset(xs) + multiset{x}
    ensures r[0] == x || (xs != [] && r[0] == xs[0])
    decreases |xs|
  {
    if xs == [] then [x]
    else if Leq(x, xs[0]) then
      SortedCons(x, xs);
      [x] + xs
    else
      assert Sorted(xs[1..]) by {
        assert forall i :: 0 <= i < |xs| - 1 ==> xs[1..][i] == xs[i + 1];
      }
      var rest := Insert(x, xs[1..]);
      LeqTotalOrder(x, xs[0], xs[0]);
      assert xs == [xs[0]] + xs[1..];
      assert |xs| > 1 ==> Leq(xs[0], xs[1]);
      SortedCons(xs[0], rest);
      [xs[0]] + rest
  }

  /** `std::sort(fitnessPopulation.begin(), fitnessPopulation.end())`,
      written as an insertion sort. `SortedUnique` shows every sorting
      algorithm yields this same sequence, so the choice of algorithm is
      immaterial. */
  function Sort(xs: seq<Scored>): (r: seq<Scored>)
    ensures Sorted(r)
    ensures multiset(r) == multiset(xs)
    decreases |xs|
  {
    if xs == [] then []
    else
      assert xs == [xs[0]] + xs[1..];
      Insert(xs[0], Sort(xs[1..]))
  }

  /** The head of a sorted sequence precedes each of its elements. */
  lemma SortedHeadFirst(a: seq<Scored>, x: Scored)
    requires Sorted(a) && x in a
    ensures Leq(a[0], x)
  {
    var k :| 0 <= k < |a| && a[k] == x;
    if k == 0 {
      LeqTotalOrder(x, x, x);
    }
  }

  lemma SortedTail(a: seq<Scored>)
    requires Sorted(a) && a != []
    ensures Sorted(a[1..])
  {
    assert forall i :: 0 <= i < |a| - 1 ==> a[1..][i] == a[i + 1];
  }

  lemma MultisetTail(a: seq<Scored>, b: seq<Scored>)
    requires a != [] && b != [] && a[0] == b[0] && multiset(a) == multiset(b)
    ensures multiset(a[1..]) == multiset(b[1..])
  {
    assert a == [a[0]] + a[1..] && b == [b[0]] + b[1..];
    assert multiset(a[1..]) == multiset(a) - multiset{a[0]};
    assert multiset(b[1..]) == multiset(b) - multiset{b[0]};
  }

  /** Two sorted arrangements of the same elements are identical: with a
      total order the result of sorting does not depend on the algorithm
      or on its stability. */
  lemma {:induction false} SortedUnique(a: seq<Scored>, b: seq<Scored>)
    requires Sorted(a) && Sorted(b) && multiset(a) == multiset(b)
    ensures a == b
    decreases |a|
  {
    assert |a| == |multiset(a)| == |multiset(b)| == |b|;
    if a != [] {
      assert a[0] in multiset(b) && b[0] in multiset(a);
      SortedHeadFirst(b, a[0]);
      SortedHeadFirst(a, b[0]);
      LeqTotalOrder(a[0], b[0], b[0]);
      MultisetTail(a, b);
      SortedTail(a);
      SortedTail(b);
      SortedUnique(a[1..], b[1..]);
      assert a == [a[0]] + a[1..] && b == [b[0]] + b[1..];
    }
  }

  /** The first element after sorting has the smallest makespan of all and
      is one of the ranked schedules. */
  lemma SortedFirstIsBest(xs: seq<Scored>)
    requires |xs| > 0
    ensures |Sort(xs)| == |xs|
    ensures Sort(xs)[0] in xs
    ensures forall x :: x in xs ==> Sort(xs)[0].fitness <= x.fitness
  {
    var r := Sort(xs);
    assert |multiset(r)| == |r| && |multiset(xs)| == |xs|;
    assert r[0] in multiset(r);
    forall x | x in xs
      ensures r[0].fitness <= x.fitness
    {
      assert x in multiset(r);
      var k :| 0 <= k < |r| && r[k] == x;
      if k > 0 {
        assert Leq(r[0], r[k]);
      }
    }
  }

  /** Truncation selection (lines 133-136): the schedules of the first
      `count` ranked entries, in rank order. */
  function Survivors(ranked: seq<Scored>, count: nat): (r: seq<Schedule>)
    requires count <= |ranked|
    ensures |r| == count
    ensures forall i :: 0 <= i < count ==> r[i] == ranked[i].schedule
  {
    if count == 0 then [] else Survivors(ranked, count - 1) + [ranked[count - 1].schedule]
  }

  /** Every survivor scored no worse than every discarded schedule. */
  lemma SurvivorsAreFittest(ranked: seq<Scored>, count: nat)
    requires Sorted(ranked) && count <= |ranked|
    ensures forall i, j :: 0 <= i < count <= j < |ranked| ==> ranked[i].fitness <= ranked[j].fitness
  {
    forall i, j | 0 <= i < count <= j < |ranked|
      ensures ranked[i].fitness <= ranked[j].fitness
    {
      assert Leq(ranked[i], ranked[j]);
    }
  }

  /** The schedules of ranked entries, in the same order. */
  function Schedules(xs: seq<Scored>): (r: seq<Schedule>)
  {
    seq(|xs|, i requires 0 <= i < |xs| => xs[i].schedule)
  }

  /** Reordering the ranked entries reorders their schedules alike. */
  lemma {:induction false} SchedulesPermute(a: seq<Scored>, b: seq<Scored>)
    requires multiset(a) == multiset(b)
    ensures multiset(Schedules(a)) == multiset(Schedules(b))
    decreases |a|
  {
    assert |a| == |multiset(a)| == |multiset(b)| == |b|;
    if a != [] {
      var n := |a| - 1;
      var x := a[n];
      assert x in multiset(b);
      var k :| 0 <= k < |b| && b[k] == x;
      RemoveAt(a, n);
      assert a[..n] + a[n + 1..] == a[..n];
      RemoveAt(b, k);
      SchedulesPermute(a[..n], b[..k] + b[k + 1..]);
      SchedulesRemoveAt(b, k);
      SchedulesRemoveAt(a, n);
    }
  }

  /** Dropping one entry drops one copy of it. */
  lemma RemoveAt<T>(s: seq<T>, k: nat)
    requires k < |s|
    ensures multiset(s[..k] + s[k + 1..]) == multiset(s) - multiset{s[k]}
  {
    assert s == s[..k] + [s[k]] + s[k + 1..];
  }

  /** Dropping one ranked entry drops one copy of its schedule. */
  lemma SchedulesRemoveAt(b: seq<Scored>, k: nat)
    requires k < |b|
    ensures multiset(Schedules(b)) == multiset(Schedules(b[..k] + b[k + 1..])) + multiset{b[k].schedule}
  {
    var sb := Schedules(b);
    var sr := Schedules(b[..k] + b[k + 1..]);
    assert sr == sb[..k] + sb[k + 1..];
    assert sb == sb[..k] + [b[k].schedule] + sb[k + 1..];
  }

  /** The survivors are a sub-multiset of the schedules of any reordering of
      the ranking: selection copies, but never duplicates. */
  lemma SurvivorsSubMultiset(ranked: seq<Scored>, scored: seq<Scored>, count: nat)
    requires multiset(ranked) == multiset(scored) && count <= |ranked|
    ensures multiset(Survivors(ranked, count)) <= multiset(Schedules(scored))
  {
    SchedulesPermute(ranked, scored);
    SurvivorsArePrefix(ranked, count);
    var all := Schedules(ranked);
    assert all == all[..count] + all[count..];
  }

  lemma SurvivorsArePrefix(ranked: seq<Scored>, count: nat)
    requires count <= |ranked|
    ensures Survivors(ranked, count) == Schedules(ranked)[..count]
  {
    var sv, all := Survivors(ranked, count), Schedules(ranked);
    forall i | 0 <= i < count
      ensures sv[i] == all[i]
    {
    }
  }
}

=== FILE: seq_facts.dfy ===
/** Facts about duplicate-free sequences of small integers, used to count
    the jobs a topological order places. */
module SeqFacts {

  /** No value occurs twice. */
  predicate Distinct<T(==)>(s: seq<T>)
  {
    forall i, j :: 0 <= i < j < |s| ==> s[i] != s[j]
  }

  /** Every element lies in [0, n). */
  predicate InRange(s: seq<int>, n: int)
  {
    forall i :: 0 <= i < |s| ==> 0 <= s[i] < n
  }

  /** The set {0, ..., n-1}. */
  function Range(n: nat): (r: set<int>)
    ensures forall v :: v in r <==> 0 <= v < n
    ensures |r| == n
  {
    if n == 0 then {} else Range(n - 1) + {n - 1}
  }

  function Elems<T(==)>(s: seq<T>): set<T>
  {
    set x | x in s
  }

  lemma {:induction false} DistinctElemsSize<T>(s: seq<T>)
    requires Distinct(s)
    ensures |Elems(s)| == |s|
  {
    if s != [] {
      var t := s[1..];
      assert Distinct(t);
      DistinctElemsSize(t);
      assert Elems(s) == Elems(t) + {s[0]};
      assert s[0] !in Elems(t);
    }
  }

  /** A subset is no larger than its superset. */
  lemma {:induction false} SubsetSize<T>(a: set<T>, b: set<T>)
    requires a <= b
    ensures |a| <= |b|
    decreases a
  {
    if a != {} {
      var x :| x in a;
      SubsetSize(a - {x}, b - {x});
    }
  }

  /** A duplicate-free sequence over [0, n) has at most n elements. */
  lemma DistinctBound(s: seq<int>, n: nat)
    requires Distinct(s) && InRange(s, n)
    ensures |s| <= n
  {
    DistinctElemsSize(s);
    SubsetSize(Elems(s), Range(n));
  }

  /** A duplicate-free sequence over [0, n) that misses a value of [0, n)
      has fewer than n elements. */
  lemma DistinctMissing(s: seq<int>, n: nat, v: int)
    requires Distinct(s) && InRange(s, n)
    requires 0 <= v < n && v !in s
    ensures |s| < n
  {
    DistinctElemsSize(s);
    SubsetSize(Elems(s), Range(n) - {v});
  }

  /** A duplicate-free sequence of n values from [0, n) holds all of them. */
  lemma DistinctFull(s: seq<int>, n: nat)
    requires Distinct(s) && InRange(s, n) && |s| == n
    ensures forall v :: 0 <= v < n ==> v in s
  {
    forall v | 0 <= v < n
      ensures v in s
    {
      if v !in s {
        DistinctMissing(s, n, v);
      }
    }
  }

  /** A sequence has no more distinct values than entries. */
  lemma {:induction false} ElemsSize<T>(s: seq<T>)
    ensures |Elems(s)| <= |s|
  {
    if s != [] {
      ElemsSize(s[1..]);
      assert Elems(s) == Elems(s[1..]) + {s[0]};
    }
  }

  /** Fewer than n entries cannot cover all of [0, n). */
  lemma ShortMisses(s: seq<int>, n: nat) returns (v: int)
    requires |s| < n
    ensures 0 <= v < n && v !in s
  {
    if forall w :: 0 <= w < n ==> w in s {
      assert Range(n) <= Elems(s);
      SubsetSize(Range(n), Elems(s));
      ElemsSize(s);
      assert false;
    }
    v :| 0 <= v < n && v !in s;
  }

  /** The first position at which `x` occurs in `s`. */
  lemma {:induction false} FirstIndex<T>(s: seq<T>, x: T) returns (i: nat)
    requires x in s
    ensures i < |s| && s[i] == x && x !in s[..i]
    decreases |s|
  {
    if s[|s| - 1] == x && x !in s[..|s| - 1] {
      i := |s| - 1;
    } else {
      var init := s[..|s| - 1];
      assert s == init + [s[|s| - 1]];
      assert x in init;
      i := FirstIndex(init, x);
      assert s[..i] == init[..i];
    }
  }

  /** Pigeonhole: more than n values from [0, n) repeat one. */
  lemma Pigeonhole(s: seq<int>, n: nat) returns (i: nat, j: nat)
    requires InRange(s, n) && |s| > n
    ensures i < j < |s| && s[i] == s[j]
  {
    if Distinct(s) {
      DistinctBound(s, n);
      assert false;
    }
    i, j :| 0 <= i < j < |s| && s[i] == s[j];
  }

  /** A sequence in which each value occurs at most once is duplicate-free. */
  lemma {:induction false} SingletonCountsDistinct<T>(s: seq<T>)
    requires forall x :: multiset(s)[x] <= 1
    ensures Distinct(s)
  {
    if s != [] {
      var t := s[1..];
      assert s == [s[0]] + t;
      assert multiset(s) == multiset{s[0]} + multiset(t);
      forall x
        ensures multiset(t)[x] <= 1
      {
        assert multiset(t)[x] <= multiset(s)[x];
      }
      SingletonCountsDistinct(t);
      assert s[0] !in t by {
        assert multiset(s)[s[0]] == 1 + multiset(t)[s[0]];
      }
      forall i, j | 0 <= i < j < |s|
        ensures s[i] != s[j]
      {
        if i == 0 {
          assert s[j] == t[j - 1];
        } else {
          assert s[i] == t[i - 1] && s[j] == t[j - 1];
        }
      }
    }
  }

  /** The two halves of a duplicate-free concatenation are disjoint. */
  lemma DistinctSplit<T>(a: seq<T>, b: seq<T>)
    requires Distinct(a + b)
    ensures forall x :: x in a ==> x !in b
  {
    var c := a + b;
    forall i, j | 0 <= i < |a| && 0 <= j < |b|
      ensures a[i] != b[j]
    {
      assert c[i] == a[i] && c[|a| + j] == b[j];
    }
  }

  /** Concatenating two disjoint duplicate-free sequences keeps them so. */
  lemma DistinctConcat<T>(a: seq<T>, b: seq<T>)
    requires Distinct(a) && Distinct(b)
    requires forall x :: x in a ==> x !in b
    ensures Distinct(a + b)
  {
    var c := a + b;
    forall i, j | 0 <= i < j < |c|
      ensures c[i] != c[j]
    {
      if j < |a| {
        assert c[i] == a[i] && c[j] == a[j];
      } else if i >= |a| {
        assert c[i] == b[i - |a|] && c[j] == b[j - |a|];
      } else {
        assert c[i] == a[i] && c[j] == b[j - |a|];
        assert c[i] in a;
      }
    }
  }
}

=== FILE: topo_sort.dfy ===
/** Kahn's algorithm as `topologicalSort` runs it (Main2.cpp:31-65): build
    the in-degree counters and successor lists, seed a FIFO queue with the
    jobs of in-degree zero in increasing id order, then repeatedly pop a
    job, append it to the order and decrement its successors' counters,
    enqueueing each one whose counter reaches zero.

    With a dependency cycle the loop stops early and the partial order is
    returned, exactly as in the source; `SortCompleteIffAcyclic` says when
    that happens. */
module TopoSort {
  import opened Base
  import opened SeqFacts

  /** The arrays of lines 33-34: an in-degree counter per job and, per job,
      the list of jobs that depend on it. */
  datatype Graph = Graph(inDegree: seq<int>, adj: seq<seq<int>>)

  /** The state of the loop of lines 53-62. */
  datatype Kahn = Kahn(inDegree: seq<int>, queue: seq<int>, order: seq<int>)

  // ---------------------------------------------------------------------
  // Specification vocabulary
  // ---------------------------------------------------------------------

  /** Every job of `order` appears after all of its dependencies. */
  predicate DepsBefore(jobs: seq<Job>, order: seq<int>)
  {
    forall i :: 0 <= i < |order| ==>
      && 0 <= order[i] < |jobs|
      && forall d :: d in jobs[order[i]].dependencies ==> d in order[..i]
  }

  /** Every job left out of `order` still waits for a job left out. */
  predicate Blocked(jobs: seq<Job>, order: seq<int>)
    requires ValidJobs(jobs)
  {
    forall v {:trigger jobs[v]} :: 0 <= v < |jobs| && v !in order ==>
      exists d :: d in jobs[v].dependencies && d !in order
  }

  /** Job `a` lists job `b` among its dependencies. */
  ghost predicate DependsOn(jobs: seq<Job>, a: int, b: int)
  {
    0 <= a < |jobs| && b in jobs[a].dependencies
  }

  /** `c` is a dependency cycle: each job depends on the next one and the
      last depends on the first. */
  ghost predicate IsCycle(jobs: seq<Job>, c: seq<int>)
  {
    && |c| > 0
    && (forall k :: 0 <= k < |c| ==> 0 <= c[k] < |jobs|)
    && (forall k :: 0 <= k < |c| - 1 ==> DependsOn(jobs, c[k], c[k + 1]))
    && DependsOn(jobs, c[|c| - 1], c[0])
  }

  ghost predicate HasCycle(jobs: seq<Job>)
  {
    exists c :: IsCycle(jobs, c)
  }

  /** The number of entries of `deps`, counted with multiplicity, that are
      not yet in `placed`. */
  function Unplaced(deps: seq<int>, placed: seq<int>): nat
  {
    if deps == [] then 0
    else (if deps[0] in placed then 0 else 1) + Unplaced(deps[1..], placed)
  }

  lemma {:induction false} UnplacedNone(deps: seq<int>)
    ensures Unplaced(deps, []) == |deps|
  {
    if deps != [] {
      UnplacedNone(deps[1..]);
    }
  }

  /** Placing `u` removes exactly its occurrences from the unplaced count. */
  lemma {:induction false} UnplacedAppend(deps: seq<int>, placed: seq<int>, u: int)
    requires u !in placed
    ensures Unplaced(deps, placed + [u]) == Unplaced(deps, placed) - multiset(deps)[u]
  {
    if deps != [] {
      UnplacedAppend(deps[1..], placed, u);
      assert deps == [deps[0]] + deps[1..];
      assert multiset(deps) == multiset{deps[0]} + multiset(deps[1..]);
      assert deps[0] in placed + [u] <==> deps[0] in placed || deps[0] == u;
    }
  }

  lemma {:induction false} UnplacedZero(deps: seq<int>, placed: seq<int>)
    ensures Unplaced(deps, placed) == 0 <==> forall d :: d in deps ==> d in placed
  {
    if deps != [] {
      UnplacedZero(deps[1..], placed);
      assert forall d :: d in deps <==> d == deps[0] || d in deps[1..];
    }
  }

  lemma UnplacedWitness(deps: seq<int>, placed: seq<int>) returns (d: int)
    requires Unplaced(deps, placed) != 0
    ensures d in deps && d !in placed
  {
    UnplacedZero(deps, placed);
    d :| d in deps && d !in placed;
  }

  // ---------------------------------------------------------------------
  // Building the graph (lines 36-42)
  // ---------------------------------------------------------------------

  /** The inner loop of lines 38-41 for one job `id`: each dependency gains
      `id` as a successor and the job's in-degree grows by one. */
  function AddEdges(g: Graph, id: int, deps: seq<int>): (r: Graph)
    requires |g.adj| == |g.inDegree| && 0 <= id < |g.inDegree|
    requires forall d :: d in deps ==> 0 <= d < |g.adj|
    ensures |r.inDegree| == |g.inDegree| && |r.adj| == |g.adj|
    decreases |deps|
  {
    if deps == [] then g
    else
      var d := deps[0];
      assert d in deps && forall x :: x in deps[1..] ==> x in deps;
      AddEdges(Graph(g.inDegree[id := g.inDegree[id] + 1], g.adj[d := g.adj[d] + [id]]), id, deps[1..])
  }

  /** After `AddEdges`, the job's counter has grown by its number of
      dependencies and each dependency's successor list holds `id` once more
      per occurrence of that dependency. */
  lemma {:induction false} AddEdgesCounts(g: Graph, id: int, deps: seq<int>)
    requires |g.adj| == |g.inDegree| && 0 <= id < |g.inDegree|
    requires forall d :: d in deps ==> 0 <= d < |g.adj|
    ensures forall v :: 0 <= v < |g.inDegree| ==>
      AddEdges(g, id, deps).inDegree[v] == g.inDegree[v] + (if v == id then |deps| else 0)
    ensures forall u, v {:trigger multiset(AddEdges(g, id, deps).adj[u])[v]} :: 0 <= u < |g.adj| ==>
      multiset(AddEdges(g, id, deps).adj[u])[v]
        == multiset(g.adj[u])[v] + (if v == id then multiset(deps)[u] else 0)
    decreases |deps|
  {
    if deps != [] {
      var d := deps[0];
      assert d in deps && forall x :: x in deps[1..] ==> x in deps;
      var g' := Graph(g.inDegree[id := g.inDegree[id] + 1], g.adj[d := g.adj[d] + [id]]);
      AddEdgesCounts(g', id, deps[1..]);
      assert deps == [d] + deps[1..];
      assert multiset(deps) == multiset{d} + multiset(deps[1..]);
      forall u | 0 <= u < |g.adj|
        ensures multiset(g'.adj[u]) == multiset(g.adj[u]) + (if u == d then multiset{id} else multiset{})
      {
        if u == d {
          assert g'.adj[u] == g.adj[u] + [id];
        }
      }
    }
  }

  /** The arrays after the outer loop of lines 37-42 has visited `jobs[..k]`. */
  function BuildGraph(jobs: seq<Job>, k: nat): (g: Graph)
    requires ValidJobs(jobs) && k <= |jobs|
    ensures |g.inDegree| == |jobs| && |g.adj| == |jobs|
    decreases k
  {
    if k == 0 then Graph(seq(|jobs|, _ => 0), seq(|jobs|, _ => []))
    else AddEdges(BuildGraph(jobs, k - 1), jobs[k - 1].id, jobs[k - 1].dependencies)
  }

  /** What the arrays say about the job set: a job's counter is its number
      of dependencies, and `u`'s successor list holds `v` once per occurrence
      of `u` among `v`'s dependencies. */
  ghost predicate GraphOf(jobs: seq<Job>, g: Graph)
  {
    && |g.inDegree| == |jobs| && |g.adj| == |jobs|
    && (forall v :: 0 <= v < |jobs| ==> g.inDegree[v] == |jobs[v].dependencies|)
    && (forall u, v {:trigger multiset(g.adj[u])[v]} :: 0 <= u < |jobs| ==>
          multiset(g.adj[u])[v] == if 0 <= v < |jobs| then multiset(jobs[v].dependencies)[u] else 0)
  }

  /** The graph built from the first `k` jobs counts exactly their edges. */
  lemma {:induction false} BuildGraphCounts(jobs: seq<Job>, k: nat)
    requires ValidJobs(jobs) && k <= |jobs|
    ensures forall v :: 0 <= v < |jobs| ==>
      BuildGraph(jobs, k).inDegree[v] == if v < k then |jobs[v].dependencies| else 0
    ensures forall u, v {:trigger multiset(BuildGraph(jobs, k).adj[u])[v]} :: 0 <= u < |jobs| ==>
      multiset(BuildGraph(jobs, k).adj[u])[v]
        == if 0 <= v < k then multiset(jobs[v].dependencies)[u] else 0
    decreases k
  {
    if k > 0 {
      var prev := BuildGraph(jobs, k - 1);
      var deps := jobs[k - 1].dependencies;
      assert jobs[k - 1].id == k - 1;
      BuildGraphCounts(jobs, k - 1);
      AddEdgesCounts(prev, k - 1, deps);
      var g := BuildGraph(jobs, k);
      assert g == AddEdges(prev, k - 1, deps);
      forall u, v | 0 <= u < |jobs|
        ensures multiset(g.adj[u])[v] == if 0 <= v < k then multiset(jobs[v].dependencies)[u] else 0
      {
        assert multiset(g.adj[u])[v] == multiset(prev.adj[u])[v] + (if v == k - 1 then multiset(deps)[u] else 0);
        assert multiset(prev.adj[u])[v] == if 0 <= v < k - 1 then multiset(jobs[v].dependencies)[u] else 0;
      }
    }
  }

  lemma BuildGraphIsGraphOf(jobs: seq<Job>)
    requires ValidJobs(jobs)
    ensures GraphOf(jobs, BuildGraph(jobs, |jobs|))
  {
    BuildGraphCounts(jobs, |jobs|);
  }

  /** Successor lists only name existing jobs. */
  lemma AdjInRange(jobs: seq<Job>, g: Graph, u: int)
    requires GraphOf(jobs, g) && 0 <= u < |jobs|
    ensures forall x :: x in g.adj[u] ==> 0 <= x < |jobs|
  {
    forall x | x in g.adj[u]
      ensures 0 <= x < |jobs|
    {
      assert multiset(g.adj[u])[x] > 0;
    }
  }

  // ---------------------------------------------------------------------
  // The queue loop (lines 45-62)
  // ---------------------------------------------------------------------

  /** The initial queue of lines 45-50: the jobs from `i` on whose counter
      is zero, in increasing id order. */
  function ZeroQueue(inDegree: seq<int>, i: nat): (q: seq<int>)
    requires i <= |inDegree|
    ensures forall v :: v in q <==> i <= v < |inDegree| && inDegree[v] == 0
    ensures forall a, b :: 0 <= a < b < |q| ==> q[a] < q[b]
    decreases |inDegree| - i
  {
    if i == |inDegree| then []
    else
      var rest := ZeroQueue(inDegree, i + 1);
      IncreasingCons(i, rest);
      (if inDegree[i] == 0 then [i] else []) + rest
  }

  lemma IncreasingCons(x: int, s: seq<int>)
    requires forall y :: y in s ==> x < y
    requires forall a, b :: 0 <= a < b < |s| ==> s[a] < s[b]
    ensures forall a, b :: 0 <= a < b < |[x] + s| ==> ([x] + s)[a] < ([x] + s)[b]
  {
    var t := [x] + s;
    forall a, b | 0 <= a < b < |t|
      ensures t[a] < t[b]
    {
      assert t[b] == s[b - 1];
      if a > 0 {
        assert t[a] == s[a - 1];
      } else {
        assert s[b - 1] in s;
      }
    }
  }

  /** Lines 57-61: decrement the counter of each successor in turn and
      enqueue it when its counter becomes exactly zero. */
  function Relax(inDegree: seq<int>, queue: seq<int>, succs: seq<int>): (r: (seq<int>, seq<int>))
    requires forall x :: x in succs ==> 0 <= x < |inDegree|
    ensures |r.0| == |inDegree| && |queue| <= |r.1| && r.1[..|queue|] == queue
    decreases |succs|
  {
    if succs == [] then (inDegree, queue)
    else
      var v := succs[0];
      assert v in succs && forall x :: x in succs[1..] ==> x in succs;
      var d := inDegree[v] - 1;
      Relax(inDegree[v := d], if d == 0 then queue + [v] else queue, succs[1..])
  }

  /** Each counter drops by the number of times its job occurs among the
      successors; a job is enqueued once exactly when its counter passes
      through zero, that is when it starts positive and drops by at least
      its value. */
  lemma RelaxCounts(inDegree: seq<int>, queue: seq<int>, succs: seq<int>)
    requires forall x :: x in succs ==> 0 <= x < |inDegree|
    ensures forall v :: 0 <= v < |inDegree| ==>
      Relax(inDegree, queue, succs).0[v] == inDegree[v] - multiset(succs)[v]
    ensures forall v {:trigger multiset(Relax(inDegree, queue, succs).1[|queue|..])[v]} ::
      multiset(Relax(inDegree, queue, succs).1[|queue|..])[v]
        == if 0 <= v < |inDegree| && 1 <= inDegree[v] <= multiset(succs)[v] then 1 else 0
  {
    RelaxDegrees(inDegree, queue, succs);
    RelaxQueue(inDegree, queue, succs);
  }

  /** `Relax` unfolded once. */
  lemma RelaxUnfold(inDegree: seq<int>, queue: seq<int>, succs: seq<int>)
      returns (deg': seq<int>, q': seq<int>, rest: seq<int>)
    requires forall x :: x in succs ==> 0 <= x < |inDegree|
    requires succs != []
    ensures 0 <= succs[0] < |inDegree|
    ensures forall x :: x in rest ==> 0 <= x < |deg'|
    ensures succs == [succs[0]] + rest && multiset(succs) == multiset{succs[0]} + multiset(rest)
    ensures deg' == inDegree[succs[0] := inDegree[succs[0]] - 1]
    ensures q' == if inDegree[succs[0]] == 1 then queue + [succs[0]] else queue
    ensures Relax(deg', q', rest) == Relax(inDegree, queue, succs)
  {
    var v := succs[0];
    assert v in succs && forall x :: x in succs[1..] ==> x in succs;
    deg' := inDegree[v := inDegree[v] - 1];
    q' := if inDegree[v] == 1 then queue + [v] else queue;
    rest := succs[1..];
    assert succs == [v] + rest;
  }

  lemma {:induction false} RelaxDegrees(inDegree: seq<int>, queue: seq<int>, succs: seq<int>)
    requires forall x :: x in succs ==> 0 <= x < |inDegree|
    ensures forall v :: 0 <= v < |inDegree| ==>
      Relax(inDegree, queue, succs).0[v] == inDegree[v] - multiset(succs)[v]
    decreases |succs|
  {
    if succs != [] {
      var deg', q', rest := RelaxUnfold(inDegree, queue, succs);
      RelaxDegrees(deg', q', rest);
    }
  }

  /** The newly queued part of `whole`, split at the end of `mid`. */
  lemma QueueSplit(whole: seq<int>, mid: seq<int>, queue: seq<int>)
    requires |queue| <= |mid| <= |whole| && whole[..|mid|] == mid
    ensures multiset(whole[|queue|..]) == multiset(mid[|queue|..]) + multiset(whole[|mid|..])
  {
    assert whole[|queue|..] == mid[|queue|..] + whole[|mid|..];
  }

  lemma {:induction false} RelaxQueue(inDegree: seq<int>, queue: seq<int>, succs: seq<int>)
    requires forall x :: x in succs ==> 0 <= x < |inDegree|
    ensures forall v {:trigger multiset(Relax(inDegree, queue, succs).1[|queue|..])[v]} ::
      multiset(Relax(inDegree, queue, succs).1[|queue|..])[v]
        == if 0 <= v < |inDegree| && 1 <= inDegree[v] <= multiset(succs)[v] then 1 else 0
    decreases |succs|
  {
    if succs != [] {
      var deg', q', rest := RelaxUnfold(inDegree, queue, succs);
      RelaxQueue(deg', q', rest);
      var r := Relax(deg', q', rest);
      QueueSplit(r.1, q', queue);
      var u := succs[0];
      var added := q'[|queue|..];
      assert added == if inDegree[u] == 1 then [u] else [];
      forall v
        ensures multiset(Relax(inDegree, queue, succs).1[|queue|..])[v]
          == if 0 <= v < |inDegree| && 1 <= inDegree[v] <= multiset(succs)[v] then 1 else 0
      {
        assert multiset(r.1[|queue|..])[v] == multiset(added)[v] + multiset(r.1[|q'|..])[v];
        if v == u {
          assert multiset(succs)[v] == multiset(rest)[v] + 1;
        } else {
          assert multiset(succs)[v] == multiset(rest)[v];
          assert multiset(added)[v] == 0;
        }
      }
    }
  }

  /** One iteration of lines 53-62. */
  function Step(g: Graph, st: Kahn): Kahn
    requires st.queue != [] && 0 <= st.queue[0] < |g.adj|
    requires forall x :: x in g.adj[st.queue[0]] ==> 0 <= x < |st.inDegree|
  {
    var node := st.queue[0];
    var relaxed := Relax(st.inDegree, st.queue[1..], g.adj[node]);
    Kahn(relaxed.0, relaxed.1, st.order + [node])
  }

  /** Counters count the dependencies not yet placed. */
  ghost predicate CountersInv(jobs: seq<Job>, st: Kahn)
  {
    && |st.inDegree| == |jobs|
    && forall v :: 0 <= v < |jobs| ==> st.inDegree[v] == Unplaced(jobs[v].dependencies, st.order)
  }

  /** The jobs seen so far (placed, then queued) are distinct existing jobs,
      and they are exactly the jobs whose counter is zero. */
  ghost predicate SeenInv(n: int, inDegree: seq<int>, seen: seq<int>)
    requires |inDegree| == n
  {
    && Distinct(seen)
    && InRange(seen, n)
    && forall v :: 0 <= v < n ==> (v in seen <==> inDegree[v] == 0)
  }

  /** The order respects dependencies and queued jobs have all their
      dependencies placed. */
  ghost predicate OrderInv(jobs: seq<Job>, st: Kahn)
  {
    && DepsBefore(jobs, st.order)
    && forall q :: q in st.queue ==>
         0 <= q < |jobs| && forall d :: d in jobs[q].dependencies ==> d in st.order
  }

  /** The invariant of the loop of lines 53-62. */
  ghost predicate KahnInv(jobs: seq<Job>, g: Graph, st: Kahn)
  {
    && ValidJobs(jobs)
    && GraphOf(jobs, g)
    && CountersInv(jobs, st)
    && SeenInv(|jobs|, st.inDegree, st.order + st.queue)
    && OrderInv(jobs, st)
  }

  lemma InitKeepsInv(jobs: seq<Job>, g: Graph)
    requires ValidJobs(jobs) && GraphOf(jobs, g)
    ensures KahnInv(jobs, g, Kahn(g.inDegree, ZeroQueue(g.inDegree, 0), []))
  {
    var q := ZeroQueue(g.inDegree, 0);
    var st := Kahn(g.inDegree, q, []);
    InitCounters(jobs, g);
    InitSeen(g.inDegree);
    assert st.order + st.queue == q;
    InitOrder(jobs, g);
  }

  lemma InitCounters(jobs: seq<Job>, g: Graph)
    requires ValidJobs(jobs) && GraphOf(jobs, g)
    ensures CountersInv(jobs, Kahn(g.inDegree, ZeroQueue(g.inDegree, 0), []))
  {
    forall v | 0 <= v < |jobs|
      ensures g.inDegree[v] == Unplaced(jobs[v].dependencies, [])
    {
      UnplacedNone(jobs[v].dependencies);
    }
  }

  /** The initial queue holds each zero counter once. */
  lemma InitSeen(inDegree: seq<int>)
    ensures SeenInv(|inDegree|, inDegree, ZeroQueue(inDegree, 0))
  {
    var q := ZeroQueue(inDegree, 0);
    assert Distinct(q);
    assert forall i :: 0 <= i < |q| ==> q[i] in q;
  }

  lemma InitOrder(jobs: seq<Job>, g: Graph)
    requires ValidJobs(jobs) && GraphOf(jobs, g)
    ensures OrderInv(jobs, Kahn(g.inDegree, ZeroQueue(g.inDegree, 0), []))
  {
    var q := ZeroQueue(g.inDegree, 0);
    forall x | x in q
      ensures 0 <= x < |jobs| && forall d :: d in jobs[x].dependencies ==> d in []
    {
      assert |jobs[x].dependencies| == 0;
    }
  }

  lemma DepsBeforeAppend(jobs: seq<Job>, order: seq<int>, u: int)
    requires DepsBefore(jobs, order) && 0 <= u < |jobs|
    requires forall d :: d in jobs[u].dependencies ==> d in order
    ensures DepsBefore(jobs, order + [u])
  {
    var o := order + [u];
    forall i | 0 <= i < |o|
      ensures 0 <= o[i] < |jobs| && forall d :: d in jobs[o[i]].dependencies ==> d in o[..i]
    {
      if i < |order| {
        assert o[..i] == order[..i];
      } else {
        assert o[..i] == order;
      }
    }
  }

  /** What one iteration does, in terms of the invariant's quantities: the
      popped job was not placed before, the counters drop by its successor
      counts, and the newly queued jobs are those whose counter just became
      zero, each once. */
  lemma StepFacts(jobs: seq<Job>, g: Graph, st: Kahn)
    requires KahnInv(jobs, g, st) && st.queue != []
    ensures 0 <= st.queue[0] < |jobs|
    ensures forall x :: x in g.adj[st.queue[0]] ==> 0 <= x < |st.inDegree|
    ensures st.queue[0] !in st.order
    ensures var u := st.queue[0];
            var st' := Step(g, st);
            && st'.order == st.order + [u]
            && |st'.inDegree| == |jobs|
            && (forall v :: 0 <= v < |jobs| ==>
                  st'.inDegree[v] == st.inDegree[v] - multiset(jobs[v].dependencies)[u])
            && |st.queue| - 1 <= |st'.queue|
            && st'.queue[..|st.queue| - 1] == st.queue[1..]
            && (forall v {:trigger multiset(st'.queue[|st.queue| - 1..])[v]} ::
                  multiset(st'.queue[|st.queue| - 1..])[v]
                    == if 0 <= v < |jobs| && st.inDegree[v] != 0 && st'.inDegree[v] == 0 then 1 else 0)
  {
    var u := st.queue[0];
    assert u in st.queue;
    AdjInRange(jobs, g, u);
    var rest := st.queue[1..];
    RelaxCounts(st.inDegree, rest, g.adj[u]);
    DistinctSplit(st.order, st.queue);
    forall v | 0 <= v < |jobs|
      ensures st.inDegree[v] >= multiset(jobs[v].dependencies)[u]
    {
      UnplacedAppend(jobs[v].dependencies, st.order, u);
    }
  }

  lemma StepKeepsCounters(jobs: seq<Job>, g: Graph, st: Kahn)
    requires KahnInv(jobs, g, st) && st.queue != []
    ensures 0 <= st.queue[0] < |jobs|
    ensures forall x :: x in g.adj[st.queue[0]] ==> 0 <= x < |st.inDegree|
    ensures CountersInv(jobs, Step(g, st))
  {
    StepFacts(jobs, g, st);
    var u := st.queue[0];
    var st' := Step(g, st);
    forall v | 0 <= v < |jobs|
      ensures st'.inDegree[v] == Unplaced(jobs[v].dependencies, st'.order)
    {
      UnplacedAppend(jobs[v].dependencies, st.order, u);
    }
  }

  /** Extending the seen jobs by exactly those whose counter has just
      reached zero keeps `SeenInv`, provided zero counters stay zero. */
  lemma SeenExtend(n: int, deg: seq<int>, deg': seq<int>, seen: seq<int>, pushed: seq<int>)
    requires |deg| == n && |deg'| == n
    requires SeenInv(n, deg, seen)
    requires forall v :: 0 <= v < n && deg[v] == 0 ==> deg'[v] == 0
    requires forall v {:trigger multiset(pushed)[v]} ::
      multiset(pushed)[v] == if 0 <= v < n && deg[v] != 0 && deg'[v] == 0 then 1 else 0
    ensures SeenInv(n, deg', seen + pushed)
  {
    forall x | x in pushed
      ensures 0 <= x < n && deg[x] != 0 && deg'[x] == 0
    {
      assert multiset(pushed)[x] > 0;
    }
    forall x
      ensures multiset(pushed)[x] <= 1
    {
    }
    SingletonCountsDistinct(pushed);
    DistinctConcat(seen, pushed);
    var all := seen + pushed;
    forall i | 0 <= i < |all|
      ensures 0 <= all[i] < n
    {
      if i >= |seen| {
        assert all[i] == pushed[i - |seen|];
        assert all[i] in pushed;
      }
    }
    forall v | 0 <= v < n
      ensures v in all <==> deg'[v] == 0
    {
      if v !in seen && deg'[v] == 0 {
        assert multiset(pushed)[v] == 1;
      }
    }
  }

  lemma StepKeepsSeen(jobs: seq<Job>, g: Graph, st: Kahn)
    requires KahnInv(jobs, g, st) && st.queue != []
    ensures 0 <= st.queue[0] < |jobs|
    ensures forall x :: x in g.adj[st.queue[0]] ==> 0 <= x < |st.inDegree|
    ensures SeenInv(|jobs|, Step(g, st).inDegree, Step(g, st).order + Step(g, st).queue)
  {
    StepFacts(jobs, g, st);
    var u := st.queue[0];
    var st' := Step(g, st);
    var rest := st.queue[1..];
    var pushed := st'.queue[|rest|..];
    assert st'.queue == rest + pushed;
    var seen := st.order + st.queue;
    assert st.queue == [u] + rest;
    assert st'.order + st'.queue == seen + pushed;
    forall v | 0 <= v < |jobs| && st.inDegree[v] == 0
      ensures st'.inDegree[v] == 0
    {
      UnplacedAppend(jobs[v].dependencies, st.order, u);
    }
    SeenExtend(|jobs|, st.inDegree, st'.inDegree, seen, pushed);
  }

  lemma StepKeepsOrder(jobs: seq<Job>, g: Graph, st: Kahn)
    requires KahnInv(jobs, g, st) && st.queue != []
    ensures 0 <= st.queue[0] < |jobs|
    ensures forall x :: x in g.adj[st.queue[0]] ==> 0 <= x < |st.inDegree|
    ensures OrderInv(jobs, Step(g, st))
  {
    StepFacts(jobs, g, st);
    StepKeepsCounters(jobs, g, st);
    var u := st.queue[0];
    assert u in st.queue;
    var st' := Step(g, st);
    var rest := st.queue[1..];
    var pushed := st'.queue[|rest|..];
    assert st'.queue == rest + pushed;
    DepsBeforeAppend(jobs, st.order, u);
    forall x | x in st'.queue
      ensures 0 <= x < |jobs| && forall d :: d in jobs[x].dependencies ==> d in st'.order
    {
      if x in rest {
        assert x in st.queue;
      } else {
        assert x in pushed;
        assert multiset(pushed)[x] > 0;
        UnplacedZero(jobs[x].dependencies, st'.order);
      }
    }
  }

  /** One loop iteration keeps the invariant. */
  lemma StepKeepsInv(jobs: seq<Job>, g: Graph, st: Kahn)
    requires KahnInv(jobs, g, st) && st.queue != []
    ensures 0 <= st.queue[0] < |g.adj|
    ensures forall x :: x in g.adj[st.queue[0]] ==> 0 <= x < |st.inDegree|
    ensures KahnInv(jobs, g, Step(g, st))
  {
    StepKeepsCounters(jobs, g, st);
    StepKeepsSeen(jobs, g, st);
    StepKeepsOrder(jobs, g, st);
  }

  /** The loop of lines 53-62 run to completion from a state meeting the
      invariant: the placed jobs are distinct and respect dependencies, and
      every job left out waits for another job left out. */
  function Drain(jobs: seq<Job>, g: Graph, st: Kahn): (order: seq<int>)
    requires KahnInv(jobs, g, st)
    ensures Distinct(order) && InRange(order, |jobs|) && DepsBefore(jobs, order)
    ensures Blocked(jobs, order)
    decreases |jobs| - |st.order|
  {
    if st.queue == [] then
      assert st.order + st.queue == st.order;
      BlockedAtEnd(jobs, g, st);
      st.order
    else
      StepKeepsInv(jobs, g, st);
      DistinctBound(st.order + st.queue, |jobs|);
      Drain(jobs, g, Step(g, st))
  }

  lemma BlockedAtEnd(jobs: seq<Job>, g: Graph, st: Kahn)
    requires KahnInv(jobs, g, st) && st.queue == []
    ensures Blocked(jobs, st.order)
  {
    assert st.order + st.queue == st.order;
    forall v | 0 <= v < |jobs| && v !in st.order
      ensures exists d :: d in jobs[v].dependencies && d !in st.order
    {
      var d := UnplacedWitness(jobs[v].dependencies, st.order);
    }
  }

  /** `topologicalSort` (lines 31-65). The result lists distinct jobs, each
      after all of its dependencies; every job it leaves out waits (directly)
      for another job it leaves out. */
  function TopologicalSort(jobs: seq<Job>): (order: seq<int>)
    requires ValidJobs(jobs)
    ensures Distinct(order) && InRange(order, |jobs|)
    ensures DepsBefore(jobs, order)
    ensures Blocked(jobs, order)
  {
    var g := BuildGraph(jobs, |jobs|);
    BuildGraphIsGraphOf(jobs);
    InitKeepsInv(jobs, g);
    Drain(jobs, g, Kahn(g.inDegree, ZeroQueue(g.inDegree, 0), []))
  }

  // ---------------------------------------------------------------------
  // Completeness and cycles
  // ---------------------------------------------------------------------

  lemma {:induction false} CycleWalk(jobs: seq<Job>, order: seq<int>, c: seq<int>, i0: nat, k: nat)
    requires DepsBefore(jobs, order) && IsCycle(jobs, c)
    requires i0 < |order| && order[i0] == c[0]
    requires 1 <= k < |c|
    ensures exists j :: 0 <= j < i0 && order[j] == c[k]
    decreases k
  {
    if k == 1 {
      assert c[1] in order[..i0];
    } else {
      CycleWalk(jobs, order, c, i0, k - 1);
      var j :| 0 <= j < i0 && order[j] == c[k - 1];
      assert c[k] in order[..j];
      var j' :| 0 <= j' < j && order[..j][j'] == c[k];
      assert order[j'] == c[k];
    }
  }

  /** No order that respects dependencies can place a job of a cycle: its
      first occurrence would have to follow itself. */
  lemma CycleNeverPlaced(jobs: seq<Job>, order: seq<int>, c: seq<int>)
    requires DepsBefore(jobs, order) && IsCycle(jobs, c)
    ensures c[0] !in order
  {
    if c[0] in order {
      var i0 := FirstIndex(order, c[0]);
      if |c| > 1 {
        CycleWalk(jobs, order, c, i0, |c| - 1);
      }
    }
  }

  /** Following dependencies that are left out, `len` jobs deep. */
  lemma {:induction false} UnplacedPath(jobs: seq<Job>, order: seq<int>, v: int, len: nat) returns (p: seq<int>)
    requires ValidJobs(jobs) && Blocked(jobs, order)
    requires 0 <= v < |jobs| && v !in order
    ensures |p| == len && InRange(p, |jobs|)
    ensures len > 0 ==> p[0] == v
    ensures forall k :: 0 <= k < len - 1 ==> DependsOn(jobs, p[k], p[k + 1])
    decreases len
  {
    if len == 0 {
      p := [];
    } else {
      var d :| d in jobs[v].dependencies && d !in order;
      var rest := UnplacedPath(jobs, order, d, len - 1);
      p := [v] + rest;
      forall k | 0 <= k < len - 1
        ensures DependsOn(jobs, p[k], p[k + 1])
      {
        if k > 0 {
          assert p[k] == rest[k - 1] && p[k + 1] == rest[k];
        }
      }
    }
  }

  /** A dependency path that revisits a job contains a cycle. */
  lemma CycleFromPath(jobs: seq<Job>, p: seq<int>, i: nat, j: nat)
    requires InRange(p, |jobs|)
    requires forall k :: 0 <= k < |p| - 1 ==> DependsOn(jobs, p[k], p[k + 1])
    requires i < j < |p| && p[i] == p[j]
    ensures IsCycle(jobs, p[i..j])
  {
    var c := p[i..j];
    forall k | 0 <= k < |c|
      ensures c[k] == p[i + k] && 0 <= c[k] < |jobs|
    {
    }
    forall k | 0 <= k < |c| - 1
      ensures DependsOn(jobs, c[k], c[k + 1])
    {
      assert c[k] == p[i + k] && c[k + 1] == p[i + k + 1];
    }
    assert c[0] == p[j];
    assert c[|c| - 1] == p[j - 1];
    assert DependsOn(jobs, p[j - 1], p[j]);
  }

  /** A job left out of a blocked order lies downstream of a cycle: a
      dependency path `p` leads from it to the first job of a cycle `c`. */
  lemma BlockedHasCycle(jobs: seq<Job>, order: seq<int>, v: int) returns (p: seq<int>, c: seq<int>)
    requires ValidJobs(jobs) && Blocked(jobs, order)
    requires 0 <= v < |jobs| && v !in order
    ensures |p| > 0 && p[0] == v
    ensures forall k :: 0 <= k < |p| - 1 ==> DependsOn(jobs, p[k], p[k + 1])
    ensures IsCycle(jobs, c) && c[0] == p[|p| - 1]
    ensures HasCycle(jobs)
  {
    var q := UnplacedPath(jobs, order, v, |jobs| + 1);
    var i, j := Pigeonhole(q, |jobs|);
    CycleFromPath(jobs, q, i, j);
    p := q[..i + 1];
    c := q[i..j];
    forall k | 0 <= k < |p| - 1
      ensures DependsOn(jobs, p[k], p[k + 1])
    {
      assert p[k] == q[k] && p[k + 1] == q[k + 1];
    }
  }

  /** The order is complete exactly when the dependency graph has no cycle;
      with a cycle it is strictly shorter than the job count. */
  lemma SortCompleteIffAcyclic(jobs: seq<Job>)
    requires ValidJobs(jobs)
    ensures |TopologicalSort(jobs)| == |jobs| <==> !HasCycle(jobs)
    ensures HasCycle(jobs) ==> |TopologicalSort(jobs)| < |jobs|
  {
    var order := TopologicalSort(jobs);
    DistinctBound(order, |jobs|);
    if HasCycle(jobs) {
      var c :| IsCycle(jobs, c);
      CycleNeverPlaced(jobs, order, c);
      DistinctMissing(order, |jobs|, c[0]);
    }
    if |order| < |jobs| {
      var v := ShortMisses(order, |jobs|);
      var _, _ := BlockedHasCycle(jobs, order, v);
    }
  }

  /** For an acyclic job set the result is a permutation of 0..N-1 in which
      every job follows all of its dependencies. */
  lemma AcyclicSortIsLinearExtension(jobs: seq<Job>)
    requires ValidJobs(jobs) && !HasCycle(jobs)
    ensures var order := TopologicalSort(jobs);
      && |order| == |jobs|
      && Distinct(order)
      && (forall v :: 0 <= v < |jobs| <==> v in order)
      && DepsBefore(jobs, order)
  {
    var order := TopologicalSort(jobs);
    SortCompleteIffAcyclic(jobs);
    DistinctFull(order, |jobs|);
  }
}
